=== FILE: README.md ===
# testing-mcp-server, modelled in Dafny

testing-mcp-server is a Model Context Protocol server. It hands test cases from a
test-management system (TMS) to a coding agent. This project models its core:

- **Cache-first lookup and rendering.** A test case is read from a local JSON cache
  (`projects/<project>/test-cases/<id>` under the installation directory). When the
  cache has no usable copy, the TMS API is asked. Either way the record is rendered
  as plain text: title line, description, precondition bullets, numbered steps.
  `{% cut … {% endcut %}` blocks are removed from step expectations.
- **Cache warm-up.** The project's listing is paged through, asking for 500
  records a time and moving on by the limit each response echoes, and every
  record is saved to its cache key.
- **The HTTPS client.** How the request URL and options are composed, and how a
  response status settles the promise.
- **File access.** Reads under the installation directory; the "safe" write,
  which makes a directory under the installation directory but writes the file
  relative to the working directory.
- **Tools.** `get_testcase` and `generate_test_from_tms` pull project and id out
  of a TMS path with a regular expression, look the case up, and wrap the outcome
  (or the error message) as a tool result.
- **Resources.** The listing callback lists every id from 1 up to each project's
  highest id, appending to one array that survives between calls. The
  `testcase://` template handler reads one case.

The model is pure: the disk is a value (`LocalStore.Disk`), the remote API is a
pair of total functions from request path to outcome (`Repository.Remote`), and
JSON is an abstract codec (`Records.Json`). A handler returns its result together
with the request paths it sent. Modules follow the source files:

| module | file | models |
|---|---|---|
| `Wrappers`, `Strings` | `wrappers.dfy`, `strings.dfy` | `Option`/`Result`, rejection reasons, JavaScript string helpers (`trimEnd`, `split`/`join`, template interpolation of `undefined`) |
| `Records` | `records.dfy` | the TMS record shapes and the JSON codec |
| `CutMarkup` | `cut_markup.dfy` | the cut-block regular expression as a scanner |
| `Formatter` | `formatter.dfy` | `testCaseFormatter` |
| `Provider` | `provider.dfy` | `src/tms/provider.ts` |
| `LocalStore` | `local_store.dfy` | `src/fs/index.ts` |
| `Repository` | `repository.dfy` | the rest of `src/tms/index.ts` |
| `Tools` | `tools.dfy` | `src/mcp-server/tools/index.ts` |
| `Resources` | `resources.dfy` | `src/mcp-server/resources/index.ts` |

Where the code behaves differently from what its naming and documentation suggest, the model follows the code. The one exception is the HTTPS client's status check (see "## Findings"). The remote the lookups use is built with the corrected check (`Repository.Client`). The client as written (`Repository.ClientAsWritten`) is modelled alongside it.

- Stripping cut blocks is not idempotent (`CutMarkup.SpliceNotIdempotent`).
  Removing an inner block can splice the text around it into a new block.
- A caller's `Authorization` header replaces the token header instead of
  augmenting it (`Provider.CallerAuthorizationWins`).
- The warm-up pauses after every page, the last one included.
- Saved files land relative to the working directory. Only when that is the
  installation directory do they meet the cache reads
  (`LocalStore.ReadMeetsWrite`).
- An unparsable path looks up the literal key
  `/projects/undefined/test-cases/undefined`. The lookup goes to the remote only
  when no such cache file exists (`Tools.ToolOnUnmatchedPath`).

## Model

| member | source | states |
|---|---|---|
| Strings.TrimEnd | src/tms/index.ts:67-68 | `trimEnd` keeps the longest prefix that does not end in JavaScript white space, and everything it drops is white space |
| Strings.Split | src/fs/index.ts:18 | `split` pieces hold no separator and join back to the original text |
| Strings.DirPartSpec | src/fs/index.ts:18 | the `split('/').slice(0,-1).join('/')` directory part is everything before the last `/`, or empty without one |
| Strings.UnderBaseOneSlash | src/fs/index.ts:8 | placing a path under the base always leaves one separator; a path differs from its `/`-prefixed form only if it already starts with `/` |
| Strings.NatToString | src/tms/index.ts:53 | an id's interpolation is a non-empty digit string with no leading zero that parses back to the id |
| Strings.NatToStringInjective | src/tms/index.ts:53 | distinct ids render differently |
| Strings.InterpolateCollides | src/mcp-server/tools/index.ts:55-56 | interpolating a value that may be missing loses exactly one distinction: a missing value reads like the text `undefined` |
| CutMarkup.MatchAt | src/tms/index.ts:61 | the lazy cut expression matches at a position exactly when a block starts there, and ends at the shortest such block |
| CutMarkup.StripFrom | src/tms/index.ts:67 | the global replace from a position never yields more text than remains after it |
| CutMarkup.Strip | src/tms/index.ts:67 | stripping cut blocks never lengthens an expectation |
| CutMarkup.StripFirstBlock | src/tms/index.ts:67 | the global replace keeps the text before the leftmost block, drops the block's shortest match, and continues after it |
| CutMarkup.StripUnchangedIff | src/tms/index.ts:67 | stripping leaves an expectation unchanged if and only if no cut block occurs in it |
| CutMarkup.Shrinks | src/tms/index.ts:67 | whenever a block occurs, stripping shortens the text |
| CutMarkup.NoBraceUnchanged | src/tms/index.ts:67 | text without `{` is never changed |
| CutMarkup.LoneBlockVanishes | src/tms/index.ts:61 | a whole block over ordinary text is removed completely |
| CutMarkup.SpliceNotIdempotent | src/tms/index.ts:61-67 | a second stripping can remove a block that the first one created by splicing |
| Formatter.StepHeader | src/tms/index.ts:66-68 | a step's header says `step:` exactly when it has a truthy expectation and `Step:` exactly when it does not |
| Formatter.RenderStep | src/tms/index.ts:66-68 | a rendered step is never empty and never ends in white space |
| Formatter.RenderSteps | src/tms/index.ts:64-69 | the steps block is empty exactly when there are no steps |
| Formatter.EmptyExpectationIsAbsent | src/tms/index.ts:66-68 | an empty expectation renders like an absent one, as the trimmed short shape |
| Formatter.ExpectedResultVerbatim | src/tms/index.ts:67 | a step with an expectation renders action, `Expected result:` and the stripped expectation, untrimmed when it ends in visible text |
| Formatter.RenderStepsSnoc | src/tms/index.ts:64-69 | steps are numbered from 1 in input order and separated by blank lines |
| Formatter.PreconditionsEdgeCases | src/tms/index.ts:71-72 | an empty precondition list renders as nothing, an absent one as `undefined` |
| Formatter.RenderPreconditions | src/tms/index.ts:71-72 | an absent list renders as `undefined`; a present one renders as nothing exactly when it is empty |
| Formatter.PreconditionLines | src/tms/index.ts:71-72 | read line by line, the precondition block is the `- condition` bullets in order |
| Formatter.FormatLines | src/tms/index.ts:60-81 | read line by line, `testCaseFormatter`'s text is the title's lines, the description's lines, blank, heading, the preconditions' lines, blank, heading, the steps' lines, for any project, title and description |
| Formatter.FormatLinesSingle | src/tms/index.ts:60-81 | with a single-line project, title and description, the title and the description are exactly one line each |
| Formatter.SingleStepFormat | src/tms/index.ts:60-80 | the full text of a one-step, one-precondition record, line by line |
| Provider.RequestUrlShape | src/tms/provider.ts:5-9 | the URL is the API root, one `/`, and the path without its leading `/` |
| Provider.Compose | src/tms/provider.ts:10-18 | the method defaults to `GET` and the CA to the certificate; the header keys are `Authorization` plus the caller's, with the caller's values winning |
| Provider.DefaultRequest | src/tms/provider.ts:10-18 | without options, a `GET` carrying only the OAuth header |
| Provider.CallerAuthorizationWins | src/tms/provider.ts:14-17 | a caller's `Authorization` header replaces the token |
| Provider.FailedAsWritten | src/tms/provider.ts:22 | the failure test as written is false for every status |
| Provider.Failed | src/tms/provider.ts:22-26 | the intended failure test holds exactly for a present, non-zero status outside 200–299 |
| Provider.FailedAgreement | src/tms/provider.ts:22 | the two tests agree exactly on absent, zero and 2xx statuses |
| Provider.NotFoundAccepted | src/tms/provider.ts:22 | a 404 passes the written test and fails the intended one |
| Provider.Settle | src/tms/provider.ts:22-32 | under the corrected status check, a response resolves exactly when the check passes, and then with its parsed body; otherwise it rejects with the bare status message |
| Provider.SettleAsWritten | src/tms/provider.ts:22-32 | as written, every status settles with the parsed body |
| Provider.SettleAgreement | src/tms/provider.ts:22-32 | the written and the corrected settlement agree exactly on the statuses the corrected check lets through |
| Provider.Request | src/tms/provider.ts:20-39 | under the corrected status check: a request resolves exactly for a response that passes the check, with its parsed body; a request error rejects with itself; a failed status rejects with the bare status message |
| Provider.RequestAsWritten | src/tms/provider.ts:20-39 | as written, a request resolves exactly when a response arrives, with its parsed body, and rejects only with a request error |
| Provider.RequestsAgree | src/tms/provider.ts:20-39 | the written and the corrected client settle alike exactly on request errors and on responses that pass the corrected check |
| Provider.NotFoundSettles | src/tms/provider.ts:22-32 | a 404 resolves with its body as written, and rejects with `Not Found` as intended |
| LocalStore.ReadPathShape | src/fs/index.ts:8 | the read path is the base, one `/`, and the path without its leading `/` |
| LocalStore.ReadFile | src/fs/index.ts:7-15 | a read succeeds exactly when a file is at the read path and yields its contents; it fails with the missing-resource message naming the full path exactly when nothing exists there |
| LocalStore.ProjectDirShape | src/fs/index.ts:18 | the directory ensured is the path's directory part under the base |
| LocalStore.MakeDirs | src/fs/index.ts:21 | with no file on its path, a recursive `mkdir` creates the directory and nothing but its ancestors, none of which was a file, and touches no file |
| LocalStore.MkdirError | src/fs/index.ts:21 | a recursive `mkdir` throws `ENOTDIR` exactly when a proper ancestor of the directory is a file |
| LocalStore.WriteError | src/fs/index.ts:24 | the write fails unless the target's parent is a directory and the target is not |
| LocalStore.WriteTargetCwd | src/fs/index.ts:24 | the working directory decides where a relative path is written, and is ignored for an absolute one |
| LocalStore.WriteFileSafety | src/fs/index.ts:17-25 | the call throws, changing nothing, exactly when the directory is missing and a file lies on its path; otherwise the directory exists afterwards, new directories lie on its path, and a write that does not throw succeeds exactly when the target's parent is a directory and the target is not, adding exactly the working-directory target |
| LocalStore.ReadMeetsWrite | src/fs/index.ts:8-24 | a relative key is read and written at the same place exactly when the working directory is the installation directory |
| LocalStore.LandsUnder | src/fs/index.ts:8-24 | from the base, `front/name` is read and written at `base/front/name`, and its directory is `base/front` |
| LocalStore.WriteFromBase | src/fs/index.ts:17-25 | from the base, with no file on the directory's path and no directory at the target, the write succeeds and stores the data under the read path |
| LocalStore.WriteElsewhereFails | src/fs/index.ts:17-25 | from elsewhere, a write whose parent neither exists nor is created fails and changes no file |
| Repository.GetTestCase | src/tms/index.ts:7-15 | a usable cache entry is rendered with no request sent; otherwise exactly one request for the case path, whose answer is rendered or whose failure is the lookup's failure; the cache is never written |
| Repository.MissingFileAsksRemote | src/tms/index.ts:10-13 | without a cache file, the lookup asks the remote and renders its answer |
| Repository.ErrorStatusFails | src/tms/index.ts:13 | under the corrected status check, an uncached case that the API answers with a non-2xx status fails the lookup with the bare status message |
| Repository.ErrorStatusFormattedAsWritten | src/tms/index.ts:13 | with the client as written, an answer with any status, a 404 included, whose body parses as a test case is formatted as that case |
| Repository.QueryString | src/tms/index.ts:18 | the query string is empty exactly for no entries, and otherwise ends in `&` |
| Repository.QueryPieces | src/tms/index.ts:18 | the query string's `&`-pieces are the `key=value` entries in order, then an empty tail |
| Repository.QueryRoundTrip | src/tms/index.ts:18 | the query string loses no entry when keys hold neither separator and values hold no `&` |
| Repository.WarmQueryRoundTrip | src/tms/index.ts:24-29 | the warm-up query (offset, limit 500, project, sort `id`) reads back from its string whenever the project holds no `&` |
| Repository.LimitText | src/tms/index.ts:26 | the page size interpolates as `500` |
| Repository.SaveTargetIsCacheKey | src/tms/index.ts:8-53 | a save from the installation directory lands on the file a lookup reads |
| Repository.SaveTargetsDistinct | src/tms/index.ts:53 | distinct ids are saved to distinct files |
| Repository.SaveItems | src/tms/index.ts:49-58 | saving adds files only at the records' targets, keeps every other file and never removes a directory; a thrown `mkdir` is reported as a failure |
| Repository.SaveItemsAppend | src/tms/index.ts:49-58 | saving two lists in turn is saving their concatenation, and a throw while saving the first stops the rest |
| Repository.BlockedSave | src/tms/index.ts:51-56 | a file on the path to a missing case directory makes the first record's `mkdir` throw, and nothing is saved |
| Repository.LastWithId | src/tms/index.ts:49-58 | the record a save leaves for an id is one carrying that id, absent exactly when none does |
| Repository.SaveOne | src/tms/index.ts:52-55 | one save from the base onto a clear disk (no file on the case directory's path, no directory at a target) succeeds, writes the serialised record at its cache key, and leaves the disk clear |
| Repository.SaveItemsFromBase | src/tms/index.ts:49-58 | a save from the base onto a clear disk succeeds and stores, for each id, the last record carrying it |
| Repository.LookupAfterSave | src/tms/index.ts:7-58 | after a save, looking an id up sends no request and renders the last saved record with that id |
| Repository.PagesNeeded | src/tms/index.ts:34-37 | the page count is the least positive number of pages of the echoed limit that covers the total |
| Repository.PagesNeededUnique | src/tms/index.ts:34-37 | the two bounds determine the page count |
| Repository.PagesAtMost | src/tms/index.ts:34-37 | a count whose last-but-one page falls short of the total is at most any count whose pages cover it |
| Repository.WarmPage | src/tms/index.ts:35-38 | one round asks for the page at the current offset; on success, it saves the page's records after the earlier ones and moves the offset by the page's echoed limit |
| Repository.CacheAllCases | src/tms/index.ts:23-47 | the warm-up asks for 500 records at offsets 0, L, 2L, … where L is the limit the server echoes; it saves every fetched record in order; it stops at the first failure, or after exactly the pages of L the total needs, pausing after each successful page |
| Tools.FindFrom | src/mcp-server/tools/index.ts:55 | the search finds the leftmost match position and, there, the longest project capture |
| Tools.ParseUnmatched | src/mcp-server/tools/index.ts:55 | with no match, both groups are `undefined` |
| Tools.ParseCaptures | src/mcp-server/tools/index.ts:55 | a captured project is non-empty and holds no line terminator; a captured id is a non-empty digit string |
| Tools.ParseBuilt | src/mcp-server/tools/index.ts:55 | for a project `p` without line terminators, `projects/<p>/testcases/<n>` reads back as `p` (as `undefined` when `p` is empty) and the digits of `n` |
| Tools.ParseGreedy | src/mcp-server/tools/index.ts:55 | the project capture is greedy and swallows an earlier `/testcases/<n>` |
| Tools.TrailingJunk | src/mcp-server/tools/index.ts:55 | for a project and a tail without `/`, digits followed by a tail that does not start with a digit leave the path unmatched |
| Tools.Respond | src/mcp-server/tools/index.ts:54-74 | a tool result has one text item: the text on success; otherwise `Error: ` with the message, flagged as an error |
| Tools.RespondRecover | src/mcp-server/tools/index.ts:58-73 | a tool result gives back exactly the outcome it reports |
| Tools.RejectionReportsUndefined | src/mcp-server/tools/index.ts:64-73 | a rejection with a bare status message is reported as `Error: undefined` |
| Tools.RespondSame | src/mcp-server/tools/index.ts:58-73 | two outcomes give the same tool result exactly when their texts or messages agree |
| Tools.GetTestcaseTool | src/mcp-server/tools/index.ts:53-75 | the handler looks up the captured project and id, `undefined` where missing, sends exactly that lookup's requests and reports its outcome |
| Tools.ToolOnBuiltPath | src/mcp-server/tools/index.ts:55-56 | a well-formed path looks up its own project and id |
| Tools.ToolOnUnmatchedPath | src/mcp-server/tools/index.ts:55-56 | an unmatched path asks the remote for `/projects/undefined/test-cases/undefined` when no such cache file exists |
| Tools.PromptSlots | src/mcp-server/tools/index.ts:21-31 | the file, the test-case text and the guidelines each sit in the prompt at their own offsets |
| Tools.GenerateTestFromTms | src/mcp-server/tools/index.ts:85-108 | a failed lookup is reported first; a missing guidelines file is reported next; otherwise the prompt embeds the case text and the guidelines |
| Tools.MissingGuidelines | src/mcp-server/tools/index.ts:88-89 | missing guidelines turn a found case into the missing-resource error naming the guidelines path |
| Tools.LookupFailsFirst | src/mcp-server/tools/index.ts:88-89 | a failed lookup is reported whatever the guidelines hold |
| Resources.Range | src/mcp-server/resources/index.ts:72-76 | `range(from, to)` yields the integers from `from` to `to` in ascending order, none when `to < from` |
| Resources.RangeMembers | src/mcp-server/resources/index.ts:72-76 | an integer is yielded exactly when it lies between the bounds |
| Resources.EntryInjective | src/mcp-server/resources/index.ts:61-65 | two listed entries are equal exactly when they name the same project and id |
| Resources.MaxIdIsLargest | src/mcp-server/resources/index.ts:53-56 | answered with the head of the listing sorted by descending id, the value read is the project's largest id; an empty project throws on `items[0].id` |
| Resources.Totals | src/mcp-server/resources/index.ts:53-57 | either every project's highest id in project order, or the failure of the first project that fails |
| Resources.ListingSize | src/mcp-server/resources/index.ts:59-67 | one entry per id of each project |
| Resources.ListingMembers | src/mcp-server/resources/index.ts:59-67 | an entry is listed exactly when it names some project and an id from 1 to that project's highest id |
| Resources.PushEntries | src/mcp-server/resources/index.ts:59-67 | the loops append each project's entries, in project order, after what the array held |
| Resources.PushProject | src/mcp-server/resources/index.ts:60-66 | the inner loop appends one entry per id from 1 to the project's highest id, after what the array held |
| Resources.ListResources | src/mcp-server/resources/index.ts:49-70 | a call asks each project's highest id; on failure the array is untouched; on success it gains the listing and the whole array is returned |
| Resources.ListCall | src/mcp-server/resources/index.ts:49-70 | a successful call only extends the shared array, by the sum of the totals |
| Resources.CallsAccumulate | src/mcp-server/resources/index.ts:50-69 | with the same answers, `n` calls leave `n` copies of the listing in the shared array |
| Resources.EmptyParamIsUndefined | src/mcp-server/resources/index.ts:37-38 | an empty array of values is looked up as the text `undefined` |
| Resources.ReadTestcaseResource | src/mcp-server/resources/index.ts:33-41 | a read returns the looked-up text under the request's URI, or that lookup's failure |
| Resources.RepeatedParamsUseFirst | src/mcp-server/resources/index.ts:37-38 | repeated parameters read the same case as their first values alone |

## Left out

- Server wiring: tool and resource registration, and the input schemas, are not
  modelled. Of the tools, `registerFns` holds only `generate_test_from_tms`. The
  `get_testcase` handler is modelled anyway; it shares its parsing and error
  handling with `generate_test_from_tms`.
- `create_test` returns a fixed prompt around its argument. It is not registered
  and has no logic.
- The `testing-docs` resource reads one fixed file. That read is `LocalStore.ReadFile`.
- The prompt's Russian wording is a parameter (`Tools.Template`); only where the
  slots sit is modelled.
- Transport: TLS, the certificate lookup and the token's environment origin are
  parameters. Headers are a plain map (no case folding).
- `Provider.Request` takes the body already parsed. The source parses inside the
  `data` listener: a body that does not parse, or a chunk that is not complete
  JSON by itself, throws there and the promise never settles; an empty body
  never settles either. None of these outcomes is modelled.
- `Repository.ErrorStatusFails` holds under the corrected status check only. With
  the check as written, `Repository.ErrorStatusFormattedAsWritten` applies.
- `Repository.ErrorStatusFormattedAsWritten` covers only error answers whose body
  parses as a test case. A real error body is not one: `testCaseFormatter` then
  throws a `TypeError` at `steps.map`, and that outcome is not modelled.
- The path separator is taken to be `/` (POSIX). On Windows `split(path.sep)`
  does not split the save key, and the directory made would be the base itself.
- JSON is abstract. Its faithfulness is a hypothesis of the lemmas that need it.
  A cached file whose record would make the formatter throw is folded into
  `decode` returning nothing, so it falls back to the remote like a bad file.
- Path normalisation (`.`, `..`, repeated `/`) is not modelled.
- `Strings.NatToString`: ids are rendered as plain decimals. JavaScript switches
  to exponent notation from 1e21, far beyond the integers the API returns.
- Shared-step and shared-precondition references are informational and dropped
  from the records.
- Concurrency: `Promise.all` writes in any order. `Repository.SaveItems` performs
  the writes in list order, so a later record with the same id wins.
- `Resources.Totals`: `Promise.all` fails with the first failure in time. The
  model takes the first in project order.
- `Repository.CacheAllCases`: the 500 ms pause is only counted; the logged error
  is returned instead of printed. The loop is proved under a remote that pages
  honestly (`Repository.WellBehaved`): every response echoes the requested
  offset, one positive limit L (500, or any cap the server applies) and one
  total. A remote whose echoed limit varies from page to page, is zero, or
  whose offsets or totals drift is not modelled.
- The loop's exit tests `total > offset` against `Number.MAX_SAFE_INTEGER`.
  Beyond that value floating-point offsets are not modelled.

## Findings

| source | as written | input that shows it | evidently intended | confidence | as-written member | corrected member |
|---|---|---|---|---|---|---|
| src/tms/provider.ts:22 | `statusCode > 299 && statusCode < 200` can never hold, so no response is rejected | a 404 response with a JSON error body resolves with that body | reject any status outside 200–299 (`> 299 \|\| < 200`) | high; not executed | Provider.SettleAsWritten | Provider.Settle |

The rest of the model uses the corrected check: `Provider.Request` settles through
`Provider.Settle`, and `Repository.Client` builds the remote from it. The written
check is carried end to end by `Provider.RequestAsWritten` and
`Repository.ClientAsWritten`: an uncached case answered with a 404 whose body is a
test case is formatted as if the lookup had succeeded, and any other body makes the
formatter throw (`Repository.ErrorStatusFormattedAsWritten`).

=== FILE: cut_markup.dfy ===
/** Removal of `{% cut … {% endcut %}` blocks from step expectations: the
    global replacement of the lazy expression `{% cut(.|\n)+?{% endcut %}`
    by the empty string, written as an explicit left-to-right scanner. */
module CutMarkup {
  import opened Wrappers
  import opened Strings

  const Open := "{% cut"
  const Close := "{% endcut %}"

  /** What `(.|\n)` matches: every character except the line terminators `.`
      refuses, with `\n` let back in (so `\r`, U+2028 and U+2029 stop a block). */
  predicate IsBodyChar(c: char) {
    c == '\n' || !IsLineTerminator(c)
  }

  /** `s[i..e]` is a text the expression can match at `i`: the opening
      marker, at least one body character, then the closing marker ending at `e`. */
  predicate IsBlock(s: string, i: nat, e: nat) {
    && StartsAt(s, i, Open)
    && i + |Open| + 1 + |Close| <= e <= |s|
    && StartsAt(s, e - |Close|, Close)
    && forall j :: i + |Open| <= j < e - |Close| ==> IsBodyChar(s[j])
  }

  /** Searches for the closing marker from candidate position `c` on, as the
      lazy quantifier does: the first closing marker wins, and a character
      outside the body class ends the search in failure. */
  function FindClose(s: string, i: nat, c: nat): (r: Option<nat>)
    requires StartsAt(s, i, Open) && i + |Open| + 1 <= c <= |s|
    requires forall j :: i + |Open| <= j < c ==> IsBodyChar(s[j])
    requires forall e: nat :: i <= e < c + |Close| ==> !IsBlock(s, i, e)
    ensures r.Some? ==> IsBlock(s, i, r.value)
    ensures r.Some? ==> forall e: nat :: i <= e < r.value ==> !IsBlock(s, i, e)
    ensures r.None? ==> forall e: nat :: !IsBlock(s, i, e)
    decreases |s| - c
  {
    if StartsAt(s, c, Close) then Some(c + |Close|)
    else if c < |s| && IsBodyChar(s[c]) then FindClose(s, i, c + 1)
    else None
  }

  /** The end of the shortest block starting at `i`, or `None` when no block starts there. */
  function MatchAt(s: string, i: nat): (r: Option<nat>)
    ensures r.Some? ==> IsBlock(s, i, r.value)
    ensures r.Some? ==> forall e: nat :: i <= e < r.value ==> !IsBlock(s, i, e)
    ensures r.None? ==> forall e: nat :: !IsBlock(s, i, e)
  {
    if StartsAt(s, i, Open) && i + |Open| < |s| && IsBodyChar(s[i + |Open|]) then
      FindClose(s, i, i + |Open| + 1)
    else
      None
  }

  /** The scanner: from `p`, drop the shortest block starting here and resume
      after it, or keep this character and move one position on. */
  function StripFrom(s: string, p: nat): (r: string)
    requires p <= |s|
    ensures |r| <= |s| - p
    decreases |s| - p
  {
    if p == |s| then ""
    else match MatchAt(s, p)
      case Some(e) => StripFrom(s, e)
      case None => [s[p]] + StripFrom(s, p + 1)
  }

  /** `expectation.replace(cutRegexp, '')`. */
  function Strip(s: string): (r: string)
    ensures |r| <= |s|
  {
    StripFrom(s, 0)
  }

  /** `t` is the text of `s` from position `p` on. */
  predicate SuffixAt(s: string, t: string, p: nat) {
    p <= |s| && |t| == |s| - p && forall k :: 0 <= k < |t| ==> t[k] == s[k + p]
  }

  lemma SuffixAtSlice(s: string, p: nat)
    requires p <= |s|
    ensures SuffixAt(s, s[p..], p)
  {
  }

  lemma StartsAtShift(s: string, t: string, p: nat, i: nat, w: string)
    requires SuffixAt(s, t, p) && p <= i
    ensures StartsAt(s, i, w) <==> StartsAt(t, i - p, w)
  {
    if i + |w| <= |s| {
      assert t[i - p..i - p + |w|] == s[i..i + |w|] by {
        forall k | i <= k < i + |w| ensures s[k] == t[k - p] {
        }
      }
    }
  }

  lemma BodyShift(s: string, t: string, p: nat, lo: nat, hi: nat)
    requires SuffixAt(s, t, p) && p <= lo <= hi <= |s|
    ensures (forall j :: lo <= j < hi ==> IsBodyChar(s[j]))
        <==> (forall j :: lo - p <= j < hi - p ==> IsBodyChar(t[j]))
  {
    forall j | p <= j < |s| ensures s[j] == t[j - p] {
    }
  }

  /** A block is a block of any suffix that contains it. */
  lemma IsBlockShift(s: string, t: string, p: nat, i: nat, e: nat)
    requires SuffixAt(s, t, p) && p <= i <= |s| && p <= e
    ensures IsBlock(s, i, e) <==> IsBlock(t, i - p, e - p)
  {
    if i + |Open| + 1 + |Close| <= e <= |s| {
      StartsAtShift(s, t, p, i, Open);
      StartsAtShift(s, t, p, e - |Close|, Close);
      BodyShift(s, t, p, i + |Open|, e - |Close|);
    }
  }

  lemma BlockToSuffix(s: string, t: string, p: nat, i: nat, e: nat)
    requires SuffixAt(s, t, p) && p <= i && IsBlock(s, i, e)
    ensures IsBlock(t, i - p, e - p)
  {
    IsBlockShift(s, t, p, i, e);
  }

  lemma BlockFromSuffix(s: string, t: string, p: nat, j: nat, f: nat)
    requires SuffixAt(s, t, p) && IsBlock(t, j, f)
    ensures IsBlock(s, j + p, f + p)
  {
    IsBlockShift(s, t, p, j + p, f + p);
  }

  /** Whether and where a block starting at `i` ends depends only on the text from `i` on. */
  lemma MatchAtShift(s: string, t: string, p: nat, i: nat)
    requires SuffixAt(s, t, p) && p <= i <= |s|
    ensures MatchAt(s, i).Some? <==> MatchAt(t, i - p).Some?
    ensures MatchAt(s, i).Some? ==> MatchAt(s, i).value == MatchAt(t, i - p).value + p
  {
    var a, b := MatchAt(s, i), MatchAt(t, i - p);
    if a.Some? {
      var e := a.value;
      BlockToSuffix(s, t, p, i, e);
      assert b.Some?;
      var f := b.value;
      BlockFromSuffix(s, t, p, i - p, f);
      assert !(f + p < e) && !(e - p < f);
    } else if b.Some? {
      BlockFromSuffix(s, t, p, i - p, b.value);
      assert false;
    }
  }

  /** Scanning from `p` is stripping the suffix that starts at `p`. */
  lemma StripFromSuffix(s: string, p: nat, q: nat)
    requires p <= q <= |s|
    ensures StripFrom(s, q) == StripFrom(s[p..], q - p)
  {
    SuffixAtSlice(s, p);
    StripShift(s, s[p..], p, q);
  }

  lemma {:induction false} StripShift(s: string, t: string, p: nat, q: nat)
    requires SuffixAt(s, t, p) && p <= q <= |s|
    ensures StripFrom(s, q) == StripFrom(t, q - p)
    decreases |s| - q
  {
    if q == |s| {
    } else if MatchAt(s, q).Some? {
      var e := MatchAt(s, q).value;
      StripShift(s, t, p, e);
      SuffixDrop(s, t, p, q, e);
    } else {
      StripShift(s, t, p, q + 1);
      SuffixKeep(s, t, p, q);
    }
  }

  /** The scan step that drops a block, on the text and on its suffix. */
  lemma SuffixDrop(s: string, t: string, p: nat, q: nat, e: nat)
    requires SuffixAt(s, t, p) && p <= q < |s| && MatchAt(s, q) == Some(e) && p <= e <= |s|
    requires StripFrom(s, e) == StripFrom(t, e - p)
    ensures StripFrom(s, q) == StripFrom(t, q - p)
  {
    assert MatchAt(t, q - p) == Some(e - p) by {
      MatchAtShift(s, t, p, q);
    }
    StripDrop(s, q, e);
    StripDrop(t, q - p, e - p);
  }

  /** The scan drops the block found at `q` and resumes at its end. */
  lemma StripDrop(s: string, q: nat, e: nat)
    requires q < |s| && e <= |s| && MatchAt(s, q) == Some(e)
    ensures StripFrom(s, q) == StripFrom(s, e)
  {
  }

  /** The scan step that keeps a character, on the text and on its suffix. */
  lemma SuffixKeep(s: string, t: string, p: nat, q: nat)
    requires SuffixAt(s, t, p) && p <= q < |s| && MatchAt(s, q).None?
    requires StripFrom(s, q + 1) == StripFrom(t, q + 1 - p)
    ensures StripFrom(s, q) == StripFrom(t, q - p)
  {
    assert MatchAt(t, q - p).None? by {
      MatchAtShift(s, t, p, q);
    }
    assert StripFrom(s, q) == [s[q]] + StripFrom(s, q + 1) by { StripStep(s, q); }
    assert StripFrom(t, q - p) == [t[q - p]] + StripFrom(t, q - p + 1) by { StripStep(t, q - p); }
  }

  /** One step of the scan. */
  lemma StripStep(s: string, q: nat)
    requires q < |s|
    ensures MatchAt(s, q).Some? ==> StripFrom(s, q) == StripFrom(s, MatchAt(s, q).value)
    ensures MatchAt(s, q).None? ==> StripFrom(s, q) == [s[q]] + StripFrom(s, q + 1)
  {
  }

  /** Text before the first block is kept verbatim, the first (shortest) block
      is dropped, and the rest is stripped on its own. */
  lemma StripFirstBlock(s: string, i: nat, e: nat)
    requires IsBlock(s, i, e)
    requires forall e' :: i <= e' < e ==> !IsBlock(s, i, e')
    requires forall i': nat, e': nat :: i' < i ==> !IsBlock(s, i', e')
    ensures Strip(s) == s[..i] + Strip(s[e..])
  {
    KeepUntil(s, 0, i);
    assert MatchAt(s, i) == Some(e);
    StripFromSuffix(s, e, e);
  }

  /** Scanning over positions where no block starts keeps every character. */
  lemma {:induction false} KeepUntil(s: string, p: nat, i: nat)
    requires p <= i <= |s|
    requires forall i': nat, e': nat :: p <= i' < i ==> !IsBlock(s, i', e')
    ensures StripFrom(s, p) == s[p..i] + StripFrom(s, i)
    decreases i - p
  {
    if p < i {
      assert MatchAt(s, p) == None;
      KeepUntil(s, p + 1, i);
    }
  }

  /** Stripping changes nothing exactly when no block occurs anywhere. */
  lemma StripUnchangedIff(s: string)
    ensures Strip(s) == s <==> forall i: nat, e: nat :: !IsBlock(s, i, e)
  {
    if forall i: nat, e: nat :: !IsBlock(s, i, e) {
      KeepUntil(s, 0, |s|);
    } else {
      var i, e :| IsBlock(s, i, e);
      Shrinks(s, 0, i);
    }
  }

  /** A block at or after `p` makes the scan from `p` strictly shorter than the text it scans. */
  lemma {:induction false} Shrinks(s: string, p: nat, i: nat)
    requires p <= i < |s| && MatchAt(s, i).Some?
    ensures |StripFrom(s, p)| < |s| - p
    decreases i - p
  {
    if MatchAt(s, p).None? {
      Shrinks(s, p + 1, i);
    }
  }

  /** Text in which the opening marker never occurs comes back unchanged. */
  lemma NoOpenUnchanged(s: string)
    requires forall i :: !StartsAt(s, i, Open)
    ensures Strip(s) == s
  {
    StripUnchangedIff(s);
  }

  /** No block starts at `i` when the `k`-th character there differs from the opening marker's. */
  lemma NoOpenAt(s: string, i: nat, k: nat)
    requires k < |Open| && i + k < |s| && s[i + k] != Open[k]
    ensures MatchAt(s, i) == None
  {
    NotStartsAt(s, i, Open, k);
  }

  /** Positions where no block starts are copied by the scan. */
  lemma {:induction false} KeepPositions(s: string, p: nat, q: nat)
    requires p <= q <= |s|
    requires forall i :: p <= i < q ==> MatchAt(s, i) == None
    ensures StripFrom(s, p) == s[p..q] + StripFrom(s, q)
    decreases q - p
  {
    if p < q {
      KeepPositions(s, p + 1, q);
    }
  }

  /** A block over a body without an opening brace ends at the first closing marker. */
  lemma BlockOverPlain(s: string, i: nat, m: nat)
    requires StartsAt(s, i, Open) && i + |Open| < m && StartsAt(s, m, Close)
    requires forall j :: i + |Open| <= j < m ==> s[j] != '{' && IsBodyChar(s[j])
    ensures MatchAt(s, i) == Some(m + |Close|)
  {
    assert IsBlock(s, i, m + |Close|);
    forall e: nat | i <= e < m + |Close| ensures !IsBlock(s, i, e) {
      if IsBlock(s, i, e) {
        NotStartsAt(s, e - |Close|, Close, 0);
        assert false;
      }
    }
  }

  /** No block starts inside a closing marker. */
  lemma CloseNeverOpens(s: string, k: nat, i: nat)
    requires StartsAt(s, k, Close) && k <= i < k + |Close|
    ensures MatchAt(s, i) == None
  {
    assert s[k..k + |Close|][i - k] == s[i];
    if i == k {
      NoOpenAt(s, i, 3);
    } else {
      assert Close[1..][i - k - 1] == s[i];
      assert '{' !in Close[1..];
      NoOpenAt(s, i, 0);
    }
  }

  /** Text the scan and the closing marker treat as plain: no opening brace,
      and nothing that would stop a block body. */
  predicate Plain(t: string) {
    |t| > 0 && forall j :: 0 <= j < |t| ==> t[j] != '{' && IsBodyChar(t[j])
  }

  /** The closing-marker-terminated tail `t`, `y`, closing marker is kept whole. */
  lemma TailKept(y: string)
    requires Plain(y)
    ensures Strip("t" + y + Close) == "t" + y + Close
  {
    var w := "t" + y + Close;
    var k := 1 + |y|;
    assert StartsAt(w, k, Close);
    forall i | 0 <= i < |w| ensures MatchAt(w, i) == None {
      if i < k {
        assert i == 0 || w[i] == y[i - 1];
        NoOpenAt(w, i, 0);
      } else {
        CloseNeverOpens(w, k, i);
      }
    }
    KeepPositions(w, 0, |w|);
  }

  /** The opening fragment `{% cu` before a block is kept. */
  lemma FragmentKept(s: string)
    requires 6 <= |s| && s[..5] == "{% cu" && s[5] == '{'
    ensures StripFrom(s, 0) == "{% cu" + StripFrom(s, 5)
  {
    forall i | 0 <= i < 5 ensures MatchAt(s, i) == None {
      assert s[..5][i] == s[i];
      if i == 0 {
        NoOpenAt(s, 0, 5);
      } else {
        NoOpenAt(s, i, 0);
      }
    }
    KeepPositions(s, 0, 5);
  }

  /** A block of plain text, alone, strips to nothing. */
  lemma LoneBlockVanishes(y: string)
    requires Plain(y)
    ensures Strip(Open + y + Close) == ""
  {
    var u := Open + y + Close;
    assert StartsAt(u, 0, Open);
    assert StartsAt(u, |Open| + |y|, Close);
    BlockOverPlain(u, 0, |Open| + |y|);
    StripDrop(u, 0, |u|);
  }

  /** Text without an opening brace has no block and comes back unchanged. */
  lemma NoBraceUnchanged(s: string)
    requires '{' !in s
    ensures Strip(s) == s
  {
    forall i | 0 <= i < |s| ensures MatchAt(s, i) == None {
      NoOpenAt(s, i, 0);
    }
    KeepPositions(s, 0, |s|);
  }

  /** The block right after the fragment is the shortest one from there. */
  lemma InnerBlockAt(x: string, w: string)
    requires Plain(x)
    ensures MatchAt("{% cu" + (Open + x + Close) + w, 5) == Some(5 + |Open| + |x| + |Close|)
  {
    var b := Open + x + Close;
    var s := "{% cu" + b + w;
    StartsAtInside("{% cu", b, w, 0, Open);
    StartsAtInside("{% cu", b, w, |Open| + |x|, Close);
    forall j | 5 + |Open| <= j < 5 + |Open| + |x| ensures s[j] != '{' && IsBodyChar(s[j]) {
      assert s[j] == b[j - 5] == x[j - 5 - |Open|];
    }
    BlockOverPlain(s, 5, 5 + |Open| + |x|);
  }

  /** The scan resumes after the dropped block on the tail alone. */
  lemma ResumeOnTail(a: string, w: string)
    ensures StripFrom(a + w, |a|) == Strip(w)
  {
    assert SuffixAt(a + w, w, |a|);
    StripShift(a + w, w, |a|, |a|);
  }

  /** The fragment and the tail's `t` make up the opening marker. */
  lemma FragmentCompletes(y: string)
    ensures "{% cu" + ("t" + y + Close) == Open + y + Close
  {
    assert "{% cu" + "t" == Open;
  }

  /** Stripping is not idempotent: removing an inner block can splice a fresh
      one together from the text around it, which a second pass then removes. */
  lemma SpliceNotIdempotent(x: string, y: string)
    requires Plain(x) && Plain(y)
    ensures Strip("{% cu" + (Open + x + Close) + ("t" + y + Close)) == Open + y + Close
    ensures Strip(Open + y + Close) == ""
  {
    var b := Open + x + Close;
    var w := "t" + y + Close;
    var s := "{% cu" + b + w;
    var e := 5 + |b|;
    assert StripFrom(s, 0) == "{% cu" + StripFrom(s, 5) by {
      assert s[..5] == "{% cu" && s[5] == Open[0];
      FragmentKept(s);
    }
    assert StripFrom(s, 5) == StripFrom(s, e) by {
      InnerBlockAt(x, w);
      StripDrop(s, 5, e);
    }
    assert StripFrom(s, e) == w by {
      ResumeOnTail("{% cu" + b, w);
      TailKept(y);
    }
    FragmentCompletes(y);
    LoneBlockVanishes(y);
  }
}

=== FILE: formatter.dfy ===
/** The test-case formatter: a pure rendering of a record and its project
    key as a title line, a description line, a preconditions block and a
    block of steps numbered from 1. */
module Formatter {
  import opened Wrappers
  import opened Strings
  import opened Records
  import CutMarkup

  /** The truthiness test on the expectation: present and non-empty. */
  predicate HasExpectation(st: Step) {
    st.expectation.Some? && st.expectation.value != ""
  }

  /** Step number `n`, in the long shape when it has an expectation (with
      cut blocks stripped from it) and in the short shape otherwise, trimmed
      at the end. */
  function RenderStep(n: nat, st: Step): (r: string)
    ensures |r| > 0 && !IsJsWhiteSpace(r[|r| - 1])
  {
    var num := NatToString(n);
    var full := if HasExpectation(st)
      then num + " step:\n" + st.action + "\nExpected result:\n" + CutMarkup.Strip(st.expectation.value)
      else num + " Step:\n" + st.action;
    TrimEndHead(full[..|num| + 2], full);
    TrimEnd(full)
  }

  /** Each step rendered with its number, counting from 1. */
  function StepTexts(steps: seq<Step>): (r: seq<string>)
    ensures |r| == |steps|
  {
    seq(|steps|, k requires 0 <= k < |steps| => RenderStep(k + 1, steps[k]))
  }

  /** The steps, numbered from 1 in order, separated by blank lines. */
  function RenderSteps(steps: seq<Step>): (r: string)
    ensures r == "" <==> |steps| == 0
  {
    var parts := StepTexts(steps);
    if |steps| > 0 then
      JoinHead(parts, "\n\n");
      Join(parts, "\n\n")
    else
      Join(parts, "\n\n")
  }

  function Bullet(p: Precondition): string {
    "- " + p.condition
  }

  /** One bullet per precondition, one per line; an absent list interpolates as `undefined`. */
  function RenderPreconditions(pre: Option<seq<Precondition>>): (r: string)
    ensures pre.None? ==> r == "undefined"
    ensures pre.Some? ==> (r == "" <==> |pre.value| == 0)
  {
    match pre
    case None => "undefined"
    case Some(ps) =>
      var bullets := seq(|ps|, k requires 0 <= k < |ps| => Bullet(ps[k]));
      if |ps| > 0 then
        JoinHead(bullets, "\n");
        Join(bullets, "\n")
      else
        Join(bullets, "\n")
  }

  function TitleLine(tc: TestCase, project: string): string {
    "Title: " + project + "-" + NatToString(tc.id) + ". " + tc.title
  }

  /** `testCaseFormatter`: the record under a title line naming the project
      and id, with the rendered steps last; `FormatLines` states its layout
      line by line. */
  function Format(tc: TestCase, project: string): string
  {
    TitleLine(tc, project) + "\n"
    + "Description: " + tc.description + "\n\n"
    + "Preconditions:\n" + RenderPreconditions(tc.preconditions) + "\n\n"
    + "Steps:\n" + RenderSteps(tc.steps)
  }

  /** The header of a rendered step says which shape it has: lower-case
      `step:` exactly when the step has an expectation, `Step:` otherwise. */
  lemma StepHeader(n: nat, st: Step)
    ensures NatToString(n) + " step:" <= RenderStep(n, st) <==> HasExpectation(st)
    ensures NatToString(n) + " Step:" <= RenderStep(n, st) <==> !HasExpectation(st)
  {
    var num := NatToString(n);
    var lower, upper := num + " step:", num + " Step:";
    assert lower[|num| + 1] != upper[|num| + 1];
    if HasExpectation(st) {
      var rest := "\n" + st.action + "\nExpected result:\n" + CutMarkup.Strip(st.expectation.value);
      assert num + " step:\n" + st.action + "\nExpected result:\n" + CutMarkup.Strip(st.expectation.value)
          == lower + rest;
      TrimEndKeeps(lower, rest);
    } else {
      assert num + " Step:\n" + st.action == upper + ("\n" + st.action);
      TrimEndKeeps(upper, "\n" + st.action);
    }
  }

  /** An empty expectation renders exactly like an absent one. */
  lemma EmptyExpectationIsAbsent(n: nat, action: string)
    ensures RenderStep(n, Step(action, Some(""))) == RenderStep(n, Step(action, None))
    ensures RenderStep(n, Step(action, None)) == TrimEnd(NatToString(n) + " Step:\n" + action)
  {
  }

  /** When the stripped expectation does not end in white space, the long
      shape carries the action and the stripped expectation verbatim. */
  lemma ExpectedResultVerbatim(n: nat, st: Step)
    requires HasExpectation(st)
    requires var x := CutMarkup.Strip(st.expectation.value); |x| > 0 && !IsJsWhiteSpace(x[|x| - 1])
    ensures RenderStep(n, st) == NatToString(n) + " step:\n" + st.action + "\nExpected result:\n"
                                 + CutMarkup.Strip(st.expectation.value)
  {
    var full := NatToString(n) + " step:\n" + st.action + "\nExpected result:\n"
                + CutMarkup.Strip(st.expectation.value);
    assert full[|full| - 1] == CutMarkup.Strip(st.expectation.value)[|CutMarkup.Strip(st.expectation.value)| - 1];
  }

  /** Steps are numbered in input order: one more step appends a blank line
      and that step rendered with the next number. */
  lemma RenderStepsSnoc(steps: seq<Step>, st: Step)
    ensures |steps| == 0 ==> RenderSteps(steps + [st]) == RenderStep(1, st)
    ensures |steps| > 0 ==> RenderSteps(steps + [st]) == RenderSteps(steps) + "\n\n" + RenderStep(|steps| + 1, st)
  {
    StepTextsSnoc(steps, st);
    if |steps| > 0 {
      JoinSnoc(StepTexts(steps), RenderStep(|steps| + 1, st), "\n\n");
    }
  }

  lemma StepTextsSnoc(steps: seq<Step>, st: Step)
    ensures StepTexts(steps + [st]) == StepTexts(steps) + [RenderStep(|steps| + 1, st)]
  {
    var all := steps + [st];
    assert forall k :: 0 <= k < |steps| ==> all[k] == steps[k];
  }

  /** An empty precondition list renders as nothing; an absent one as `undefined`. */
  lemma PreconditionsEdgeCases()
    ensures RenderPreconditions(Some([])) == ""
    ensures RenderPreconditions(None) == "undefined"
  {
  }

  /** Read line by line, a present precondition list is its bullets in order,
      provided no condition spans several lines. */
  lemma PreconditionLines(ps: seq<Precondition>)
    requires |ps| > 0
    requires forall k :: 0 <= k < |ps| ==> '\n' !in ps[k].condition
    ensures Split(RenderPreconditions(Some(ps)), '\n') == seq(|ps|, k requires 0 <= k < |ps| => Bullet(ps[k]))
  {
    var bullets := seq(|ps|, k requires 0 <= k < |ps| => Bullet(ps[k]));
    forall k | 0 <= k < |ps| ensures '\n' !in bullets[k] {
      assert bullets[k] == "- " + ps[k].condition;
    }
    SplitJoin(bullets, '\n');
  }

  /** The title line is a single line when the project and title are. */
  lemma TitleSingleLine(tc: TestCase, project: string)
    requires '\n' !in project && '\n' !in tc.title
    ensures '\n' !in TitleLine(tc, project)
  {
    var num := NatToString(tc.id);
    assert forall i :: 0 <= i < |num| ==> num[i] != '\n';
  }

  /** The lines after the preconditions heading. */
  lemma BlocksLines(pre: string, steps: string)
    ensures Split(pre + "\n" + ("" + "\n" + ("Steps:" + "\n" + steps)), '\n')
         == Split(pre, '\n') + ["", "Steps:"] + Split(steps, '\n')
  {
    var tail := "Steps:" + "\n" + steps;
    SplitLine("Steps:", steps, '\n');
    SplitLine("", tail, '\n');
    SplitConcat(pre, "" + "\n" + tail, '\n');
  }

  /** The text with its line breaks made explicit. */
  lemma FormatAsLines(tc: TestCase, project: string)
    ensures Format(tc, project)
         == TitleLine(tc, project) + "\n" + (("Description: " + tc.description) + "\n" + ("" + "\n"
            + ("Preconditions:" + "\n" + (RenderPreconditions(tc.preconditions) + "\n"
            + ("" + "\n" + ("Steps:" + "\n" + RenderSteps(tc.steps)))))))
  {
    Layout(TitleLine(tc, project), tc.description, RenderPreconditions(tc.preconditions), RenderSteps(tc.steps));
  }

  lemma Layout(title: string, desc: string, pre: string, steps: string)
    ensures title + "\n" + "Description: " + desc + "\n\n" + "Preconditions:\n" + pre + "\n\n" + "Steps:\n" + steps
         == title + "\n" + (("Description: " + desc) + "\n" + ("" + "\n"
            + ("Preconditions:" + "\n" + (pre + "\n" + ("" + "\n" + ("Steps:" + "\n" + steps))))))
  {
    assert "\n\n" == "\n" + ("" + "\n");
    assert "Preconditions:\n" == "Preconditions:" + "\n";
    assert "Steps:\n" == "Steps:" + "\n";
  }

  /** The lines after the title line. */
  lemma BodyLines(desc: string, pre: string, steps: string)
    ensures Split(desc + "\n" + ("" + "\n" + ("Preconditions:" + "\n"
                  + (pre + "\n" + ("" + "\n" + ("Steps:" + "\n" + steps))))), '\n')
         == Split(desc, '\n') + (["", "Preconditions:"] + (Split(pre, '\n') + ["", "Steps:"] + Split(steps, '\n')))
  {
    var pres := pre + "\n" + ("" + "\n" + ("Steps:" + "\n" + steps));
    BlocksLines(pre, steps);
    HeadingLines(pres);
    SplitConcat(desc, "" + "\n" + ("Preconditions:" + "\n" + pres), '\n');
  }

  /** The blank line and the preconditions heading before the block. */
  lemma HeadingLines(pres: string)
    ensures Split("" + "\n" + ("Preconditions:" + "\n" + pres), '\n') == ["", "Preconditions:"] + Split(pres, '\n')
  {
    var heading := "Preconditions:" + "\n" + pres;
    assert '\n' !in "Preconditions:";
    SplitLine("Preconditions:", pres, '\n');
    SplitLine("", heading, '\n');
    Cons2("", "Preconditions:", Split(pres, '\n'));
  }

  lemma Cons2<T>(x: T, y: T, s: seq<T>)
    ensures [x] + ([y] + s) == [x, y] + s
  {
  }

  /** The lines of the whole text: each free-text part contributes its own
      lines, and the fixed blanks and headings sit between them. */
  lemma AllLines(title: string, desc: string, pre: string, steps: string)
    ensures Split(title + "\n" + (desc + "\n" + ("" + "\n" + ("Preconditions:" + "\n"
                  + (pre + "\n" + ("" + "\n" + ("Steps:" + "\n" + steps)))))), '\n')
         == Split(title, '\n') + Split(desc, '\n') + ["", "Preconditions:"]
            + Split(pre, '\n') + ["", "Steps:"] + Split(steps, '\n')
  {
    var body := desc + "\n" + ("" + "\n" + ("Preconditions:" + "\n"
                + (pre + "\n" + ("" + "\n" + ("Steps:" + "\n" + steps)))));
    SplitConcat(title, body, '\n');
    BodyLines(desc, pre, steps);
    Regroup(Split(title, '\n'), Split(desc, '\n'), ["", "Preconditions:"], Split(pre, '\n'), ["", "Steps:"], Split(steps, '\n'));
  }

  lemma Regroup<T>(t: seq<T>, d: seq<T>, h: seq<T>, a: seq<T>, b: seq<T>, c: seq<T>)
    ensures t + (d + (h + (a + b + c))) == t + d + h + a + b + c
  {
  }

  /** Read line by line, the text is the title's lines, the description's
      lines, a blank line, the preconditions heading and block, a blank line,
      and the steps heading and block: a line break inside the project, the
      title or the description adds lines of its own and nothing else. */
  lemma FormatLines(tc: TestCase, project: string)
    ensures Split(Format(tc, project), '\n')
         == Split(TitleLine(tc, project), '\n')
            + Split("Description: " + tc.description, '\n')
            + ["", "Preconditions:"]
            + Split(RenderPreconditions(tc.preconditions), '\n')
            + ["", "Steps:"]
            + Split(RenderSteps(tc.steps), '\n')
  {
    FormatAsLines(tc, project);
    AllLines(TitleLine(tc, project), "Description: " + tc.description,
             RenderPreconditions(tc.preconditions), RenderSteps(tc.steps));
  }

  /** With a single-line project, title and description, the title and the
      description are one line each. */
  lemma FormatLinesSingle(tc: TestCase, project: string)
    requires '\n' !in project && '\n' !in tc.title && '\n' !in tc.description
    ensures Split(Format(tc, project), '\n')
         == [TitleLine(tc, project), "Description: " + tc.description, "", "Preconditions:"]
            + Split(RenderPreconditions(tc.preconditions), '\n')
            + ["", "Steps:"]
            + Split(RenderSteps(tc.steps), '\n')
  {
    FormatLines(tc, project);
    TitleSingleLine(tc, project);
    DescriptionSingleLine(tc.description);
    FirstLines(TitleLine(tc, project), "Description: " + tc.description,
               Split(RenderPreconditions(tc.preconditions), '\n'), Split(RenderSteps(tc.steps), '\n'));
  }

  lemma DescriptionSingleLine(desc: string)
    requires '\n' !in desc
    ensures '\n' !in "Description: " + desc
  {
    assert '\n' !in "Description: ";
  }

  /** Two single-line parts are one line each ahead of the fixed lines. */
  lemma FirstLines(t: string, d: string, pre: seq<string>, steps: seq<string>)
    requires '\n' !in t && '\n' !in d
    ensures Split(t, '\n') + Split(d, '\n') + ["", "Preconditions:"] + pre + ["", "Steps:"] + steps
         == [t, d, "", "Preconditions:"] + pre + ["", "Steps:"] + steps
  {
    SplitFree(t, '\n');
    SplitFree(d, '\n');
    assert [t] + [d] + ["", "Preconditions:"] == [t, d, "", "Preconditions:"];
  }

  /** A single step with a plain expectation renders as its long shape, untouched. */
  lemma SinglePlainStep(action: string, expectation: string)
    requires |expectation| > 0 && !IsJsWhiteSpace(expectation[|expectation| - 1])
    requires '{' !in expectation
    ensures RenderSteps([Step(action, Some(expectation))])
         == "1 step:\n" + action + "\nExpected result:\n" + expectation
  {
    var st := Step(action, Some(expectation));
    CutMarkup.NoBraceUnchanged(expectation);
    ExpectedResultVerbatim(1, st);
    assert NatToString(1) == "1";
    assert NatToString(1) + " step:\n" == "1 step:\n";
    assert StepTexts([st]) == [RenderStep(1, st)];
    assert RenderSteps([st]) == Join(StepTexts([st]), "\n\n") == RenderStep(1, st);
  }

  /** A one-step, one-precondition record, line by line. */
  lemma SingleStepFormat(id: nat, title: string, description: string, condition: string,
                         action: string, expectation: string, project: string)
    requires |expectation| > 0 && !IsJsWhiteSpace(expectation[|expectation| - 1])
    requires '{' !in expectation
    ensures Format(TestCase(id, title, description, [Step(action, Some(expectation))],
                            Some([Precondition(condition)])), project)
         == "Title: " + project + "-" + NatToString(id) + ". " + title + "\n"
            + "Description: " + description + "\n\n"
            + "Preconditions:\n" + "- " + condition + "\n\n"
            + "Steps:\n" + "1 step:\n" + action + "\nExpected result:\n" + expectation
  {
    var tc := TestCase(id, title, description, [Step(action, Some(expectation))], Some([Precondition(condition)]));
    var head := TitleLine(tc, project) + "\n" + "Description: " + description + "\n\n" + "Preconditions:\n";
    SinglePlainStep(action, expectation);
    assert RenderPreconditions(tc.preconditions) == "- " + condition;
    assert Format(tc, project) == head + ("- " + condition) + "\n\n" + "Steps:\n"
                                  + ("1 step:\n" + action + "\nExpected result:\n" + expectation);
    Regroup2(head, "- ", condition);
    Regroup4(head + "- " + condition + "\n\n" + "Steps:\n", "1 step:\n", action, "\nExpected result:\n", expectation);
  }

  lemma Regroup2(x: string, a: string, b: string)
    ensures x + (a + b) == x + a + b
  {
  }

  lemma Regroup4(x: string, a: string, b: string, c: string, e: string)
    ensures x + (a + b + c + e) == x + a + b + c + e
  {
  }
}

=== FILE: local_store.dfy ===
/** The server's file access (`src/fs/index.ts`): reads resolved under the
    installation directory, and a "safe" write that creates a directory under
    the installation directory but writes its file relative to the process
    working directory. The file system is a set of directories and a map of
    file contents, both keyed by absolute path; path normalisation (`.`,
    `..`, repeated separators) is not modelled. */
module LocalStore {
  import opened Wrappers
  import opened Strings

  datatype Disk = Disk(dirs: set<string>, files: map<string, string>)

  /** `existsSync`: a file or a directory lives at `p`. */
  predicate Exists(d: Disk, p: string) {
    p in d.dirs || p in d.files
  }

  const MissingPrefix := "Invalid path to resource "

  /** Reading an existing directory fails inside the read itself. */
  const IsDirectoryMessage := "EISDIR: " + "illegal operation on a directory, read"

  /** The absolute path `readFileSync(p)` opens, under the installation directory `base`. */
  function ReadPath(base: string, p: string): string {
    UnderBase(base, p)
  }

  /** The read path is the base, one `/`, and `p` without one leading `/`. */
  lemma ReadPathShape(base: string, p: string)
    ensures ReadPath(base, "/" + p) == base + "/" + p
    ensures (|p| == 0 || p[0] != '/') ==> ReadPath(base, p) == base + "/" + p
  {
    UnderBaseOneSlash(base, p);
  }

  /** `readFileSync`: the contents of an existing file; the missing-resource
      error naming the full path when nothing exists there. */
  function ReadFile(d: Disk, base: string, p: string): (r: Result<string, Fault>)
    ensures r.Success? <==> ReadPath(base, p) in d.files
    ensures r.Success? ==> r.value == d.files[ReadPath(base, p)]
    ensures r == Failure(Thrown(MissingPrefix + ReadPath(base, p))) <==> !Exists(d, ReadPath(base, p))
  {
    var fp := ReadPath(base, p);
    assert IsDirectoryMessage[0] == 'E' && (MissingPrefix + fp)[0] == MissingPrefix[0] == 'I';
    if fp in d.files then Success(d.files[fp])
    else if fp in d.dirs then Failure(Thrown(IsDirectoryMessage))
    else Failure(Thrown(MissingPrefix + fp))
  }

  /** The directory `writeFileSafety(f, _)` makes sure of: the base, one `/`,
      and the directory part of `f` without one leading `/`. */
  function ProjectDir(base: string, f: string): string {
    UnderBase(base, DirPart(f))
  }

  /** For a relative path with a directory part, the directory ensured is that
      part under the base; a bare file name yields the base followed by `/`. */
  lemma ProjectDirShape(base: string, front: string, name: string)
    requires '/' !in name
    ensures (|front| == 0 || front[0] != '/') ==> ProjectDir(base, front + "/" + name) == base + "/" + front
    ensures ProjectDir(base, name) == base + "/"
  {
    DirPartOf(front, name);
    UnderBaseOneSlash(base, front);
    DirPartSpec(name);
  }

  /** Where `writeFile(f, _)` writes: `f` itself when absolute, otherwise `f`
      resolved against the working directory `cwd`. */
  function WriteTarget(cwd: string, f: string): string {
    if |f| > 0 && f[0] == '/' then f else cwd + "/" + f
  }

  /** The working directory decides where a relative path is written, and
      is ignored for an absolute one. */
  lemma WriteTargetCwd(c1: string, c2: string, f: string)
    ensures WriteTarget(c1, f) == WriteTarget(c2, f) <==> c1 == c2 || (|f| > 0 && f[0] == '/')
  {
    if WriteTarget(c1, f) == WriteTarget(c2, f) && !(|f| > 0 && f[0] == '/') {
      assert c1 == WriteTarget(c1, f)[..|c1|];
      assert c2 == WriteTarget(c2, f)[..|c2|];
    }
  }

  /** The directories above `dir`: each prefix that ends just before one of its `/`s. */
  function ProperAncestors(dir: string): (r: set<string>)
    ensures forall a :: a in r ==> a < dir
  {
    set k: nat | 0 < k < |dir| && dir[k] == '/' :: dir[..k]
  }

  /** `dir` and the directories above it. */
  function Ancestors(dir: string): (r: set<string>)
    ensures dir in r
    ensures forall a :: a in r ==> a <= dir
  {
    {dir} + ProperAncestors(dir)
  }

  /** Why `mkdirSync(dir, {recursive: true})` throws, if it does: a file
      stands where one of the directories above `dir` should be. */
  function MkdirError(d: Disk, dir: string): (r: Option<Fault>)
    ensures r.None? <==> ProperAncestors(dir) !! d.files.Keys
  {
    if ProperAncestors(dir) !! d.files.Keys then None
    else Some(Thrown("ENOTDIR: not a directory, mkdir '" + dir + "'"))
  }

  /** `mkdirSync(dir, {recursive: true})`, when it does not throw: the
      directory and every missing ancestor are created. */
  function MakeDirs(d: Disk, dir: string): (r: Disk)
    requires MkdirError(d, dir).None? && dir !in d.files
    ensures r.files == d.files
    ensures dir in r.dirs
    ensures d.dirs <= r.dirs
    ensures forall a :: a in r.dirs - d.dirs ==> a <= dir && a !in d.files
  {
    d.(dirs := d.dirs + Ancestors(dir))
  }

  /** A write's outcome: the disk afterwards, the failure, if any, and whether
      that failure was thrown synchronously (by `mkdirSync`) rather than
      reported through the returned promise. */
  datatype Written = Written(disk: Disk, error: Option<Fault>, thrown: bool)

  /** Why writing the file at `t` (named `f` by the caller) fails, if it does. */
  function WriteError(d: Disk, t: string, f: string): (r: Option<Fault>)
    ensures r.None? <==> DirPart(t) in d.dirs && t !in d.dirs
  {
    if t in d.dirs then Some(Thrown("EISDIR: illegal operation on a directory, open '" + f + "'"))
    else if DirPart(t) in d.dirs then None
    else if DirPart(t) in d.files then Some(Thrown("ENOTDIR: not a directory, open '" + f + "'"))
    else Some(Thrown("ENOENT: no such file or directory, open '" + f + "'"))
  }

  /** `writeFileSafety(f, _)` throws before writing: the directory under the
      base is missing and a file blocks the way to it. */
  predicate MkdirThrows(d: Disk, base: string, f: string) {
    !Exists(d, ProjectDir(base, f)) && MkdirError(d, ProjectDir(base, f)).Some?
  }

  /** `writeFileSafety(f, data)` with `data` already serialised: the
      directory under the base is created when nothing exists there (which
      throws when a file is in its way), then the file is written relative to
      the working directory. */
  function WriteFileSafety(d: Disk, base: string, cwd: string, f: string, data: string): (r: Written)
    ensures r.thrown <==> MkdirThrows(d, base, f)
    ensures r.thrown ==> r == Written(d, MkdirError(d, ProjectDir(base, f)), true)
    ensures !r.thrown ==> Exists(r.disk, ProjectDir(base, f))
    ensures !r.thrown ==>
              (r.error.None? <==> DirPart(WriteTarget(cwd, f)) in r.disk.dirs && WriteTarget(cwd, f) !in r.disk.dirs)
    ensures d.dirs <= r.disk.dirs
    ensures forall a :: a in r.disk.dirs - d.dirs ==>
              !Exists(d, ProjectDir(base, f)) && a <= ProjectDir(base, f) && a !in d.files
    ensures r.error.None? ==> r.disk.files == d.files[WriteTarget(cwd, f) := data]
    ensures r.error.Some? ==> r.disk.files == d.files
  {
    var pd := ProjectDir(base, f);
    if MkdirThrows(d, base, f) then Written(d, MkdirError(d, pd), true)
    else
      var d1 := if Exists(d, pd) then d else MakeDirs(d, pd);
      var t := WriteTarget(cwd, f);
      var e := WriteError(d1, t, f);
      if e.None? then Written(d1.(files := d1.files[t := data]), None, false) else Written(d1, e, false)
  }

  /** The cache read of a relative key and the write of the same key address
      one file exactly when the working directory is the installation directory. */
  lemma ReadMeetsWrite(base: string, cwd: string, f: string)
    requires |f| > 0 && f[0] != '/'
    ensures WriteTarget(cwd, f) == ReadPath(base, "/" + f) <==> cwd == base
  {
    ReadPathShape(base, f);
    if WriteTarget(cwd, f) == ReadPath(base, "/" + f) {
      var w := cwd + "/" + f;
      assert w == base + "/" + f;
      assert |cwd| == |base|;
      assert cwd == w[..|cwd|];
      assert base == (base + "/" + f)[..|base|];
    }
  }

  /** Where a relative `front/name` lands under `base`, read or written, and
      which directory the write makes sure of. */
  lemma LandsUnder(base: string, front: string, name: string)
    requires |front| > 0 && front[0] != '/' && '/' !in name
    ensures WriteTarget(base, front + "/" + name) == base + "/" + front + "/" + name
    ensures ReadPath(base, "/" + front + "/" + name) == base + "/" + front + "/" + name
    ensures ProjectDir(base, front + "/" + name) == base + "/" + front
  {
    var f := front + "/" + name;
    assert f[0] == front[0];
    ReadPathShape(base, f);
    assert "/" + front + "/" + name == "/" + f;
    ProjectDirShape(base, front, name);
  }

  /** Run from the installation directory, a write of `front/name` succeeds
      unless something is in the way (a file where the directory or one of
      its ancestors goes, a directory where the file goes) and stores `data`
      under the read path. */
  lemma WriteFromBase(d: Disk, base: string, front: string, name: string, data: string)
    requires |front| > 0 && front[0] != '/' && '/' !in name
    requires Ancestors(base + "/" + front) !! d.files.Keys
    requires base + "/" + front + "/" + name !in d.dirs
    ensures WriteFileSafety(d, base, base, front + "/" + name, data).error.None?
    ensures WriteFileSafety(d, base, base, front + "/" + name, data).disk.files
         == d.files[ReadPath(base, "/" + front + "/" + name) := data]
  {
    var f := front + "/" + name;
    var pd := base + "/" + front;
    var t := base + "/" + front + "/" + name;
    LandsUnder(base, front, name);
    assert DirPart(t) == pd by {
      DirPartOf(pd, name);
    }
    assert !MkdirThrows(d, base, f) by {
      assert ProperAncestors(pd) <= Ancestors(pd);
    }
    var d1 := if Exists(d, pd) then d else MakeDirs(d, pd);
    assert pd in d1.dirs;
    assert t !in d1.dirs by {
      assert |t| > |pd|;
    }
    assert WriteError(d1, t, f).None?;
  }

  /** Run from elsewhere, a write whose working-directory parent is missing,
      and is not among the directories the write itself creates, changes no file. */
  lemma WriteElsewhereFails(d: Disk, base: string, cwd: string, f: string, data: string)
    requires DirPart(WriteTarget(cwd, f)) !in d.dirs
    requires !(DirPart(WriteTarget(cwd, f)) <= ProjectDir(base, f))
    ensures WriteFileSafety(d, base, cwd, f, data).error.Some?
    ensures WriteFileSafety(d, base, cwd, f, data).disk.files == d.files
  {
  }
}

=== FILE: provider.dfy ===
/** The HTTPS client for the test-management API (`src/tms/provider.ts`):
    how a request's URL and options are composed, and how a response's
    status decides between rejecting and resolving. The transport, the
    certificate lookup and the token's origin in the environment are
    parameters. */
module Provider {
  import opened Wrappers
  import opened Strings

  const Api := "https://api.tms.yandex-team.ru/v1"

  /** The URL requested for an API-relative `url`. */
  function RequestUrl(url: string): string {
    UnderBase(Api, url)
  }

  /** One separator between the API root and the path, whether or not the
      caller starts the path with `/`; a doubled `/` keeps one of them. */
  lemma RequestUrlShape(url: string)
    ensures RequestUrl("/" + url) == Api + "/" + url
    ensures (|url| == 0 || url[0] != '/') ==> RequestUrl(url) == Api + "/" + url
    ensures RequestUrl(url) == RequestUrl("/" + url) <==> (|url| == 0 || url[0] != '/')
  {
    UnderBaseOneSlash(Api, url);
  }

  /** What a caller may pass as `options` (`verb` is its `method`); `None` is an absent key. */
  datatype Options = Options(verb: Option<string>, ca: Option<string>, headers: Option<map<string, string>>)

  /** The options the request is sent with. */
  datatype Sent = Sent(ca: string, verb: string, headers: map<string, string>)

  const Authorization := "Authorization"

  /** The default header value for a token that may be unset. */
  function OAuth(token: Option<string>): string {
    "OAuth " + Interpolate(token)
  }

  /** `{ca, method: 'GET', ...options, headers: {Authorization, ...options.headers}}`:
      the defaults first, the caller's keys over them. */
  function Compose(options: Options, cert: string, token: Option<string>): (r: Sent)
    ensures r.verb == options.verb.GetOr("GET")
    ensures r.ca == options.ca.GetOr(cert)
    ensures r.headers.Keys == {Authorization} + options.headers.GetOr(map[]).Keys
    ensures forall k :: k in options.headers.GetOr(map[]) ==> r.headers[k] == options.headers.GetOr(map[])[k]
    ensures Authorization !in options.headers.GetOr(map[]) ==> r.headers[Authorization] == OAuth(token)
  {
    Sent(options.ca.GetOr(cert), options.verb.GetOr("GET"),
         map[Authorization := OAuth(token)] + options.headers.GetOr(map[]))
  }

  /** With no options, a `GET` carrying only the token. */
  lemma DefaultRequest(cert: string, token: Option<string>)
    ensures Compose(Options(None, None, None), cert, token)
         == Sent(cert, "GET", map[Authorization := OAuth(token)])
  {
  }

  /** A caller's `Authorization` header replaces the token. */
  lemma CallerAuthorizationWins(options: Options, cert: string, token: Option<string>, v: string)
    requires options.headers.Some? && Authorization in options.headers.value
    requires options.headers.value[Authorization] == v
    ensures Compose(options, cert, token).headers[Authorization] == v
  {
  }

  /** `res.statusCode && res.statusCode > 299 && res.statusCode < 200`, as
      written: an absent or zero status is falsy, and no number is both
      above 299 and below 200. */
  function FailedAsWritten(status: Option<int>): (r: bool)
    ensures !r
  {
    match status
    case None => false
    case Some(c) => c != 0 && c > 299 && c < 200
  }

  /** The evidently intended check: a present, non-zero status outside 2xx. */
  function Failed(status: Option<int>): (r: bool)
    ensures r <==> status.Some? && status.value != 0 && !(200 <= status.value <= 299)
  {
    match status
    case None => false
    case Some(c) => c != 0 && (c > 299 || c < 200)
  }

  /** A 404 is accepted as written and rejected by the intended check. */
  lemma NotFoundAccepted()
    ensures !FailedAsWritten(Some(404)) && Failed(Some(404))
  {
  }

  /** The two checks agree exactly on responses that should succeed. */
  lemma FailedAgreement(status: Option<int>)
    ensures FailedAsWritten(status) == Failed(status)
        <==> status.None? || status.value == 0 || 200 <= status.value <= 299
  {
  }

  /** How the request's promise settles for a response with `status`,
      `statusMessage` and a body that parsed: a failed status rejects with the
      bare status message; otherwise the parsed body resolves it. */
  function Settle<T>(status: Option<int>, statusMessage: string, body: T): (r: Result<T, Fault>)
    ensures r.Success? <==> !Failed(status)
    ensures r.Success? ==> r.value == body
    ensures r.Failure? ==> r.error == Rejected(statusMessage)
  {
    if Failed(status) then Failure(Rejected(statusMessage)) else Success(body)
  }

  /** As written, every status resolves with the body. */
  function SettleAsWritten<T>(status: Option<int>, statusMessage: string, body: T): (r: Result<T, Fault>)
    ensures r == Success(body)
  {
    if FailedAsWritten(status) then Failure(Rejected(statusMessage)) else Success(body)
  }

  /** The written and the intended settlement coincide exactly on the
      statuses the intended check lets through. */
  lemma SettleAgreement<T>(status: Option<int>, statusMessage: string, body: T)
    ensures Settle(status, statusMessage, body) == SettleAsWritten(status, statusMessage, body) <==> !Failed(status)
  {
  }

  /** A 404 with a parsed error body resolves with it as written, and rejects
      with the status message as intended. */
  lemma NotFoundSettles<T>(body: T)
    ensures SettleAsWritten(Some(404), "Not Found", body) == Success(body)
    ensures Settle(Some(404), "Not Found", body) == Failure(Rejected("Not Found"))
  {
    NotFoundAccepted();
  }

  /** What the transport delivers for one request: a response whose body
      parsed, or an `error` event on the request itself. */
  datatype Exchange<T> = Response(status: Option<int>, statusMessage: string, body: T)
                       | Broken(error: Fault)

  /** What `request(url)` settles with, under the intended status check: a
      transport error rejects with itself; a failed status rejects with the
      bare status message; any other response resolves with its body. */
  function Request<T>(x: Exchange<T>): (r: Result<T, Fault>)
    ensures r.Success? <==> x.Response? && !Failed(x.status)
    ensures r.Success? ==> r.value == x.body
    ensures x.Broken? ==> r == Failure(x.error)
    ensures x.Response? && r.Failure? ==> r.error == Rejected(x.statusMessage)
  {
    match x
    case Response(status, message, body) => Settle(status, message, body)
    case Broken(e) => Failure(e)
  }

  /** What `request(url)` settles with as written: only a transport error rejects. */
  function RequestAsWritten<T>(x: Exchange<T>): (r: Result<T, Fault>)
    ensures r.Success? <==> x.Response?
    ensures r.Success? ==> r.value == x.body
    ensures x.Broken? ==> r == Failure(x.error)
  {
    match x
    case Response(status, message, body) => SettleAsWritten(status, message, body)
    case Broken(e) => Failure(e)
  }

  /** The written and the intended client settle alike exactly when the
      transport failed or the status is one the intended check lets through. */
  lemma RequestsAgree<T>(x: Exchange<T>)
    ensures Request(x) == RequestAsWritten(x) <==> x.Broken? || !Failed(x.status)
  {
  }
}

=== FILE: records.dfy ===
/** The test-case records the remote test-management API returns, reduced
    to the fields the server reads. Local and shared steps (and
    preconditions) carry the same `action`/`expectation` (`condition`) text;
    the shared-step references are informational and left out. */
module Records {
  import opened Wrappers

  /** One step; an absent expectation and an empty one render the same way. */
  datatype Step = Step(action: string, expectation: Option<string>)

  datatype Precondition = Precondition(condition: string)

  datatype TestCase = TestCase(
    id: nat,
    title: string,
    description: string,
    steps: seq<Step>,
    preconditions: Option<seq<Precondition>>)

  /** One page of the paginated listing endpoint. */
  datatype Page = Page(items: seq<TestCase>, limit: nat, total: Option<nat>, offset: nat)

  /** JSON serialisation of records, left abstract: `encode` is `JSON.stringify`,
      `decode` is `JSON.parse` followed by the shape the formatter needs
      (`None` for text that does not parse or a record the formatter would
      throw on). */
  datatype Json = Json(encode: TestCase -> string, decode: string -> Option<TestCase>)

  /** Parsing what was serialised gives the record back. */
  ghost predicate Faithful(json: Json) {
    forall tc :: json.decode(json.encode(tc)) == Some(tc)
  }
}

=== FILE: repository.dfy ===
/** The test-case repository (`src/tms/index.ts`): a cache-first lookup of
    one formatted test case, the listing query, and the warm-up pass that
    pages through a project's test cases and stores each one on disk. The
    remote API is a pair of total functions from the path handed to the
    HTTPS client to what that request settles with. */
module Repository {
  import opened Wrappers
  import opened Strings
  import opened Records
  import opened LocalStore
  import Formatter
  import Provider

  /** The remote API, keyed by the API-relative path of a request. */
  datatype Remote = Remote(testCase: string -> Result<TestCase, Fault>, page: string -> Result<Page, Fault>)

  /** The path of one test case, both on the API and as a cache key under the installation directory. */
  function CaseUri(project: string, id: string): string {
    "/projects/" + project + "/test-cases/" + id
  }

  /** The cached record: the file exists, parses and has the shape the formatter needs. */
  function Cached(d: Disk, base: string, json: Json, project: string, id: string): Option<TestCase> {
    match ReadFile(d, base, CaseUri(project, id))
    case Success(text) => json.decode(text)
    case Failure(_) => None
  }

  /** A lookup's outcome and the requests it sent. */
  datatype Lookup = Lookup(text: Result<string, Fault>, requests: seq<string>)

  /** `getTestCase`: the formatted cache entry when there is a usable one,
      otherwise one request for the same path and its formatted response. */
  function GetTestCase(d: Disk, base: string, json: Json, remote: Remote, project: string, id: string): (r: Lookup)
    ensures r.requests == [] <==> Cached(d, base, json, project, id).Some?
    ensures r.requests == [] ==> r.text == Success(Formatter.Format(Cached(d, base, json, project, id).value, project))
    ensures r.requests != [] ==> r.requests == [CaseUri(project, id)]
    ensures r.requests != [] ==> r.text == remote.testCase(CaseUri(project, id)).MapValue(tc => Formatter.Format(tc, project))
  {
    match Cached(d, base, json, project, id)
    case Some(tc) => Lookup(Success(Formatter.Format(tc, project)), [])
    case None =>
      var uri := CaseUri(project, id);
      Lookup(remote.testCase(uri).MapValue(tc => Formatter.Format(tc, project)), [uri])
  }

  /** Without a cache file, every lookup goes to the remote. */
  lemma MissingFileAsksRemote(d: Disk, base: string, json: Json, remote: Remote, project: string, id: string)
    requires !Exists(d, ReadPath(base, CaseUri(project, id)))
    ensures GetTestCase(d, base, json, remote, project, id).requests == [CaseUri(project, id)]
    ensures GetTestCase(d, base, json, remote, project, id).text
         == remote.testCase(CaseUri(project, id)).MapValue(tc => Formatter.Format(tc, project))
  {
  }

  /** The remote as the HTTPS client presents it: what the transport delivers
      for each path, settled with the intended status check. */
  function Client(testCases: string -> Provider.Exchange<TestCase>, pages: string -> Provider.Exchange<Page>): Remote {
    Remote(u => Provider.Request(testCases(u)), u => Provider.Request(pages(u)))
  }

  /** The same remote with the status check as written. */
  function ClientAsWritten(testCases: string -> Provider.Exchange<TestCase>, pages: string -> Provider.Exchange<Page>): Remote {
    Remote(u => Provider.RequestAsWritten(testCases(u)), u => Provider.RequestAsWritten(pages(u)))
  }

  /** Under the intended status check, a case missing from the cache that the
      API answers with a status outside 2xx fails the lookup with the bare
      status message. */
  lemma ErrorStatusFails(d: Disk, base: string, json: Json, testCases: string -> Provider.Exchange<TestCase>,
                         pages: string -> Provider.Exchange<Page>, project: string, id: string,
                         code: int, message: string, body: TestCase)
    requires !Exists(d, ReadPath(base, CaseUri(project, id)))
    requires testCases(CaseUri(project, id)) == Provider.Response(Some(code), message, body)
    requires code != 0 && !(200 <= code <= 299)
    ensures GetTestCase(d, base, json, Client(testCases, pages), project, id)
         == Lookup(Failure(Rejected(message)), [CaseUri(project, id)])
  {
    MissingFileAsksRemote(d, base, json, Client(testCases, pages), project, id);
  }

  /** As written, the same answer is formatted as if it were the case: any
      status, a 404 included, resolves with the parsed body. */
  lemma ErrorStatusFormattedAsWritten(d: Disk, base: string, json: Json, testCases: string -> Provider.Exchange<TestCase>,
                                      pages: string -> Provider.Exchange<Page>, project: string, id: string,
                                      code: int, message: string, body: TestCase)
    requires !Exists(d, ReadPath(base, CaseUri(project, id)))
    requires testCases(CaseUri(project, id)) == Provider.Response(Some(code), message, body)
    ensures GetTestCase(d, base, json, ClientAsWritten(testCases, pages), project, id)
         == Lookup(Success(Formatter.Format(body, project)), [CaseUri(project, id)])
  {
    MissingFileAsksRemote(d, base, json, ClientAsWritten(testCases, pages), project, id);
  }

  // ----- The listing query -----

  type Query = seq<(string, string)>

  /** `key=value&` for every entry, in order: no encoding, a trailing `&`. */
  function QueryString(q: Query): (r: string)
    ensures r == "" <==> |q| == 0
    ensures |q| > 0 ==> r[|r| - 1] == '&'
  {
    if |q| == 0 then "" else q[0].0 + "=" + q[0].1 + "&" + QueryString(q[1..])
  }

  /** The text before the first `c` and the text after it (all of `s` and nothing, without one). */
  function Cut(s: string, c: char): (r: (string, string))
    ensures c !in r.0
    ensures c in s ==> s == r.0 + [c] + r.1
    ensures c !in s ==> r == (s, "")
  {
    if |s| == 0 then ("", "")
    else if s[0] == c then ("", s[1..])
    else
      var rest := Cut(s[1..], c);
      assert s == [s[0]] + s[1..];
      ([s[0]] + rest.0, rest.1)
  }

  /** A reading of a query string back into entries. */
  function ParseQuery(s: string): Query {
    var parts := Split(s, '&');
    seq(|parts| - 1, k requires 0 <= k < |parts| - 1 => Cut(parts[k], '='))
  }

  /** An entry `k=v` cuts back into `k` and `v` when `k` holds no `=`. */
  lemma {:induction false} CutAtFirst(k: string, v: string)
    requires '=' !in k
    ensures Cut(k + "=" + v, '=') == (k, v)
  {
    var s := k + "=" + v;
    if |k| == 0 {
      assert s == "=" + v && s[1..] == v;
    } else {
      assert s[0] == k[0] && s[1..] == k[1..] + "=" + v;
      CutAtFirst(k[1..], v);
      assert [k[0]] + k[1..] == k;
    }
  }

  /** The pieces of a query string between `&`s are its entries, then an empty tail. */
  lemma {:induction false} QueryPieces(q: Query)
    requires forall i :: 0 <= i < |q| ==> '&' !in q[i].0 && '&' !in q[i].1
    ensures Split(QueryString(q), '&') == seq(|q|, i requires 0 <= i < |q| => q[i].0 + "=" + q[i].1) + [""]
  {
    if |q| == 0 {
      SplitFree("", '&');
    } else {
      var e := q[0].0 + "=" + q[0].1;
      assert QueryString(q) == e + "&" + QueryString(q[1..]);
      SplitLine(e, QueryString(q[1..]), '&');
      QueryPieces(q[1..]);
    }
  }

  /** The query string loses nothing as long as keys hold no `=` or `&` and
      values no `&`. */
  lemma QueryRoundTrip(q: Query)
    requires forall i :: 0 <= i < |q| ==> '&' !in q[i].0 && '&' !in q[i].1 && '=' !in q[i].0
    ensures ParseQuery(QueryString(q)) == q
  {
    QueryPieces(q);
    CutEntries(QueryString(q), q);
  }

  /** Pieces of the form `k=v` read back as their entries. */
  lemma CutEntries(s: string, q: Query)
    requires |Split(s, '&')| == |q| + 1
    requires forall i :: 0 <= i < |q| ==> '=' !in q[i].0 && Split(s, '&')[i] == q[i].0 + "=" + q[i].1
    ensures ParseQuery(s) == q
  {
    var r := ParseQuery(s);
    assert |r| == |q|;
    forall i | 0 <= i < |q|
      ensures r[i] == q[i]
    {
      CutAtFirst(q[i].0, q[i].1);
    }
  }

  /** `getTestCasesList`: the path of a listing request. */
  function ListUrl(project: string, q: Query): string {
    "/projects/" + project + "/test-cases?" + QueryString(q)
  }

  const PageSize: nat := 500

  /** `Number.MAX_SAFE_INTEGER`, the total assumed before the first page. */
  const MaxSafeInteger: int := 9007199254740991

  /** The warm-up query: offset, limit, project and sort, in that insertion order. */
  function WarmQuery(project: string, offset: nat): Query {
    [("offset", NatToString(offset)), ("limit", NatToString(PageSize)), ("project", project), ("sort", "id")]
  }

  lemma LimitText()
    ensures NatToString(PageSize) == "500"
  {
    assert NatToString(5) == "5";
    assert NatToString(50) == "50";
  }

  /** The page a listing request for `offset` settles with. */
  function PageAt(remote: Remote, project: string, offset: nat): Result<Page, Fault> {
    remote.page(ListUrl(project, WarmQuery(project, offset)))
  }

  /** The warm-up query reads back as what was asked for, whatever the project
      is as long as it holds no `&`. */
  lemma WarmQueryRoundTrip(project: string, offset: nat)
    requires '&' !in project
    ensures ParseQuery(QueryString(WarmQuery(project, offset)))
         == [("offset", NatToString(offset)), ("limit", "500"), ("project", project), ("sort", "id")]
  {
    WarmQueryClean(project, offset);
    QueryRoundTrip(WarmQuery(project, offset));
    LimitText();
  }

  /** The warm-up query's keys and values hold no separator that would be misread. */
  lemma WarmQueryClean(project: string, offset: nat)
    requires '&' !in project
    ensures var q := WarmQuery(project, offset);
      forall i :: 0 <= i < |q| ==> '&' !in q[i].0 && '&' !in q[i].1 && '=' !in q[i].0
  {
    var q := WarmQuery(project, offset);
    forall i | 0 <= i < |q|
      ensures '&' !in q[i].0 && '&' !in q[i].1 && '=' !in q[i].0
    {
      if i == 0 {
        DigitsClean(NatToString(offset));
      } else if i == 1 {
        DigitsClean(NatToString(PageSize));
      }
    }
  }

  /** A digit string holds neither separator. */
  lemma DigitsClean(s: string)
    requires AllDigits(s)
    ensures '&' !in s && '=' !in s
  {
    assert forall j :: 0 <= j < |s| ==> IsDigit(s[j]);
  }

  // ----- Saving pages -----

  /** Where `testCasesSaver` writes one record, relative to the working directory. */
  function SavePath(project: string, id: nat): string {
    "projects/" + project + "/test-cases/" + NatToString(id)
  }

  /** The disk location a save lands on. */
  function SaveTarget(cwd: string, project: string, id: nat): string {
    WriteTarget(cwd, SavePath(project, id))
  }

  /** What a lookup reads is what a save from the installation directory writes. */
  lemma SaveTargetIsCacheKey(base: string, project: string, id: nat)
    ensures SaveTarget(base, project, id) == ReadPath(base, CaseUri(project, NatToString(id)))
  {
    var f := SavePath(project, id);
    assert CaseUri(project, NatToString(id)) == "/" + f by {
      assert "/" + "projects/" == "/projects/";
    }
    assert SaveTarget(base, project, id) == base + "/" + f by {
      assert f[0] == 'p';
    }
    ReadPathShape(base, f);
  }

  /** The files a save of `items` may touch. */
  function Targets(cwd: string, project: string, items: seq<TestCase>): set<string> {
    if |items| == 0 then {} else {SaveTarget(cwd, project, items[0].id)} + Targets(cwd, project, items[1..])
  }

  /** `testCasesSaver`: every record written in order (duplicate ids: the
      last write wins). A synchronous throw from `mkdirSync` ends the `map`:
      no later record is written, `Promise.all` is never reached, and the
      throw is the failure. Otherwise the combined write fails with the first
      rejected write. */
  function SaveItems(d: Disk, base: string, cwd: string, json: Json, project: string, items: seq<TestCase>): (r: Written)
    ensures r.thrown ==> r.error.Some?
    ensures d.dirs <= r.disk.dirs
    ensures d.files.Keys <= r.disk.files.Keys <= d.files.Keys + Targets(cwd, project, items)
    ensures forall k :: k in d.files && k !in Targets(cwd, project, items) ==> r.disk.files[k] == d.files[k]
    decreases |items|
  {
    if |items| == 0 then Written(d, None, false)
    else
      var w := WriteFileSafety(d, base, cwd, SavePath(project, items[0].id), json.encode(items[0]));
      if w.thrown then w
      else
        var rest := SaveItems(w.disk, base, cwd, json, project, items[1..]);
        Written(rest.disk, if w.error.Some? && !rest.thrown then w.error else rest.error, rest.thrown)
  }

  /** Saving two lists one after the other is saving their concatenation,
      unless the first save throws, which ends the whole save there. */
  lemma {:induction false} SaveItemsAppend(d: Disk, base: string, cwd: string, json: Json, project: string,
                                           a: seq<TestCase>, b: seq<TestCase>)
    decreases |a|
    ensures SaveItems(d, base, cwd, json, project, a).thrown
        ==> SaveItems(d, base, cwd, json, project, a + b) == SaveItems(d, base, cwd, json, project, a)
    ensures !SaveItems(d, base, cwd, json, project, a).thrown
        ==> SaveItems(d, base, cwd, json, project, a + b).disk
            == SaveItems(SaveItems(d, base, cwd, json, project, a).disk, base, cwd, json, project, b).disk
    ensures !SaveItems(d, base, cwd, json, project, a).thrown
        ==> (SaveItems(d, base, cwd, json, project, a + b).error.None?
             <==> SaveItems(d, base, cwd, json, project, a).error.None?
                  && SaveItems(SaveItems(d, base, cwd, json, project, a).disk, base, cwd, json, project, b).error.None?)
  {
    if |a| == 0 {
      assert a + b == b;
    } else {
      var w := WriteFileSafety(d, base, cwd, SavePath(project, a[0].id), json.encode(a[0]));
      assert (a + b)[0] == a[0] && (a + b)[1..] == a[1..] + b;
      if !w.thrown {
        SaveItemsAppend(w.disk, base, cwd, json, project, a[1..], b);
      }
    }
  }

  /** The record a save of `items` leaves under `id`: the last one carrying it. */
  function LastWithId(items: seq<TestCase>, id: nat): (r: Option<TestCase>)
    ensures r.None? <==> forall i :: 0 <= i < |items| ==> items[i].id != id
    ensures r.Some? ==> exists i :: 0 <= i < |items| && items[i] == r.value && r.value.id == id
                                    && forall j :: i < j < |items| ==> items[j].id != id
  {
    if |items| == 0 then None
    else match LastWithId(items[1..], id)
      case Some(tc) =>
        ghost var i :| 0 <= i < |items[1..]| && items[1..][i] == tc && tc.id == id
                       && forall j :: i < j < |items[1..]| ==> items[1..][j].id != id;
        assert items[i + 1] == tc;
        assert forall j :: i + 1 < j < |items| ==> items[j] == items[1..][j - 1];
        Some(tc)
      case None =>
        assert forall j :: 0 < j < |items| ==> items[j] == items[1..][j - 1];
        if items[0].id == id then Some(items[0]) else None
  }

  /** The directory every save of `project` needs. */
  function CaseDir(base: string, project: string): string {
    base + "/projects/" + project + "/test-cases"
  }

  /** A file on the path to a case directory that does not exist yet makes
      `mkdirSync` throw at the first record: the save stops there and
      changes nothing. */
  lemma BlockedSave(d: Disk, base: string, cwd: string, json: Json, project: string, items: seq<TestCase>)
    requires |items| > 0
    requires !Exists(d, CaseDir(base, project))
    requires !(ProperAncestors(CaseDir(base, project)) !! d.files.Keys)
    ensures SaveItems(d, base, cwd, json, project, items).thrown
    ensures SaveItems(d, base, cwd, json, project, items).disk == d
  {
    SaveLands(base, project, items[0].id);
  }

  /** Nothing on disk stands in the way of saving `project`'s records from `base`. */
  ghost predicate SaveClear(d: Disk, base: string, project: string) {
    Ancestors(CaseDir(base, project)) !! d.files.Keys
    && forall id: nat :: SaveTarget(base, project, id) !in d.dirs
  }

  lemma SaveTargetInCaseDir(base: string, project: string, id: nat)
    ensures SaveTarget(base, project, id) == CaseDir(base, project) + "/" + NatToString(id)
    ensures '/' !in NatToString(id)
  {
    var s := NatToString(id);
    assert forall j :: 0 <= j < |s| ==> IsDigit(s[j]);
  }

  /** The directory part of every save path. */
  function SaveFront(project: string): string {
    "projects/" + project + "/test-cases"
  }

  /** A save path is its directory, `/`, and a file name without `/`. */
  lemma SaveSplit(project: string, id: nat)
    ensures SavePath(project, id) == SaveFront(project) + "/" + NatToString(id)
    ensures '/' !in NatToString(id)
  {
    var name := NatToString(id);
    assert forall j :: 0 <= j < |name| ==> IsDigit(name[j]);
  }

  /** The case directory is the save paths' directory under `base`. */
  lemma CaseDirFront(base: string, project: string)
    ensures base + "/" + SaveFront(project) == CaseDir(base, project)
  {
    assert "/" + "projects/" == "/projects/";
  }

  /** Where the directory and the file of a save land under `base`. */
  lemma SaveLands(base: string, project: string, id: nat)
    ensures base + "/" + SaveFront(project) == CaseDir(base, project)
    ensures base + "/" + SaveFront(project) + "/" + NatToString(id) == SaveTarget(base, project, id)
    ensures ReadPath(base, "/" + SaveFront(project) + "/" + NatToString(id)) == SaveTarget(base, project, id)
    ensures ProjectDir(base, SavePath(project, id)) == CaseDir(base, project)
  {
    SaveSplit(project, id);
    LandsUnder(base, SaveFront(project), NatToString(id));
    CaseDirFront(base, project);
  }

  /** A write of one target whose new directories lie on the way to the
      case directory keeps the disk clear. */
  lemma StaysClear(d: Disk, r: Disk, base: string, project: string, id: nat, data: string)
    requires SaveClear(d, base, project)
    requires r.files == d.files[SaveTarget(base, project, id) := data]
    requires forall a :: a in r.dirs - d.dirs ==> a <= CaseDir(base, project)
    ensures SaveClear(r, base, project)
  {
    forall i: nat
      ensures SaveTarget(base, project, i) !in r.dirs
    {
      var t := SaveTarget(base, project, i);
      SaveTargetInCaseDir(base, project, i);
      assert |t| > |CaseDir(base, project)|;
      assert t !in d.dirs;
      assert t !in r.dirs - d.dirs;
    }
    var c := CaseDir(base, project);
    SaveTargetInCaseDir(base, project, id);
    assert SaveTarget(base, project, id) !in Ancestors(c) by {
      assert |SaveTarget(base, project, id)| > |c|;
    }
    assert r.files.Keys == d.files.Keys + {SaveTarget(base, project, id)};
  }

  /** One save from `base` onto a clear disk succeeds and keeps the disk clear. */
  lemma SaveOne(d: Disk, base: string, json: Json, project: string, tc: TestCase)
    requires SaveClear(d, base, project)
    ensures WriteFileSafety(d, base, base, SavePath(project, tc.id), json.encode(tc)).error.None?
    ensures WriteFileSafety(d, base, base, SavePath(project, tc.id), json.encode(tc)).disk.files
         == d.files[SaveTarget(base, project, tc.id) := json.encode(tc)]
    ensures SaveClear(WriteFileSafety(d, base, base, SavePath(project, tc.id), json.encode(tc)).disk, base, project)
  {
    var data := json.encode(tc);
    SaveSplit(project, tc.id);
    SaveLands(base, project, tc.id);
    WriteFromBase(d, base, SaveFront(project), NatToString(tc.id), data);
    var r := WriteFileSafety(d, base, base, SavePath(project, tc.id), data);
    StaysClear(d, r.disk, base, project, tc.id, data);
  }

  /** A file no record of `items` is saved to is not among the save's targets. */
  lemma {:induction false} UntargetedId(base: string, project: string, items: seq<TestCase>, id: nat)
    requires LastWithId(items, id).None?
    ensures SaveTarget(base, project, id) !in Targets(base, project, items)
  {
    if |items| > 0 {
      SaveTargetsDistinct(project, base, id, items[0].id);
      assert forall j :: 0 <= j < |items[1..]| ==> items[1..][j] == items[j + 1];
      UntargetedId(base, project, items[1..], id);
    }
  }

  /** Saving from the installation directory onto a clear disk succeeds and
      leaves, under each saved id, the last record carrying that id, and no
      other save target changes. */
  lemma {:induction false} SaveItemsFromBase(d: Disk, base: string, json: Json, project: string, items: seq<TestCase>)
    requires SaveClear(d, base, project)
    ensures SaveItems(d, base, base, json, project, items).error.None?
    ensures SaveClear(SaveItems(d, base, base, json, project, items).disk, base, project)
    ensures forall id: nat :: LastWithId(items, id).Some? ==>
              SaveTarget(base, project, id) in SaveItems(d, base, base, json, project, items).disk.files
              && SaveItems(d, base, base, json, project, items).disk.files[SaveTarget(base, project, id)]
                 == json.encode(LastWithId(items, id).value)
    decreases |items|
  {
    if |items| > 0 {
      var tc := items[0];
      var w := WriteFileSafety(d, base, base, SavePath(project, tc.id), json.encode(tc));
      SaveOne(d, base, json, project, tc);
      SaveItemsFromBase(w.disk, base, json, project, items[1..]);
      var r := SaveItems(w.disk, base, base, json, project, items[1..]);
      assert SaveItems(d, base, base, json, project, items) == Written(r.disk, r.error, r.thrown);
      forall id: nat | LastWithId(items, id).Some?
        ensures SaveTarget(base, project, id) in r.disk.files
        ensures r.disk.files[SaveTarget(base, project, id)] == json.encode(LastWithId(items, id).value)
      {
        if LastWithId(items[1..], id).None? {
          UntargetedId(base, project, items[1..], id);
          assert tc.id == id;
        }
      }
    }
  }

  /** Distinct ids are saved to distinct files. */
  lemma SaveTargetsDistinct(project: string, base: string, m: nat, n: nat)
    requires m != n
    ensures SaveTarget(base, project, m) != SaveTarget(base, project, n)
  {
    SaveTargetInCaseDir(base, project, m);
    SaveTargetInCaseDir(base, project, n);
    var c := CaseDir(base, project) + "/";
    assert SaveTarget(base, project, m)[|c|..] == NatToString(m);
    assert SaveTarget(base, project, n)[|c|..] == NatToString(n);
    if NatToString(m) == NatToString(n) {
      NatToStringInjective(m, n);
    }
  }

  /** Once a record is saved from the installation directory, looking it up
      reads it back from disk and sends no request. */
  lemma LookupAfterSave(d: Disk, base: string, json: Json, remote: Remote, project: string, items: seq<TestCase>, id: nat)
    requires Faithful(json) && SaveClear(d, base, project)
    requires LastWithId(items, id).Some?
    ensures GetTestCase(SaveItems(d, base, base, json, project, items).disk, base, json, remote, project, NatToString(id))
         == Lookup(Success(Formatter.Format(LastWithId(items, id).value, project)), [])
  {
    var disk := SaveItems(d, base, base, json, project, items).disk;
    var tc := LastWithId(items, id).value;
    var key := SaveTarget(base, project, id);
    assert key in disk.files && disk.files[key] == json.encode(tc) by {
      SaveItemsFromBase(d, base, json, project, items);
    }
    assert ReadPath(base, CaseUri(project, NatToString(id))) == key by {
      SaveTargetIsCacheKey(base, project, id);
    }
    assert Cached(disk, base, json, project, NatToString(id)) == Some(tc);
  }

  // ----- Warming the cache -----

  /** A remote that pages honestly through `total` records: each listing
      response echoes the requested offset, reports one positive page size
      `step` as its limit (the 500 asked for, or the server's own cap), and
      reports the same total (an absent total counting as 0, as `?? 0` reads it). */
  ghost predicate WellBehaved(remote: Remote, project: string, total: nat, step: nat) {
    step > 0
    && forall o: nat :: PageAt(remote, project, o).Success? ==>
      PageAt(remote, project, o).value.offset == o
      && PageAt(remote, project, o).value.limit == step
      && PageAt(remote, project, o).value.total.GetOr(0) == total
  }

  /** How many listing requests a full pass over `total` records takes in
      pages of `step`: at least one, since the first request is made before
      any total is known. */
  function PagesNeeded(total: nat, step: nat): (r: nat)
    requires step > 0
    ensures r >= 1
    ensures total <= step * r
    ensures r == 1 || step * (r - 1) < total
  {
    if total == 0 then 1
    else
      var r := (total + step - 1) / step;
      var m := (total + step - 1) % step;
      assert total + step - 1 == step * r + m;
      assert step * (r - 1) == step * r - step;
      r
  }

  /** The page count is pinned down by the two bounds it satisfies. */
  lemma PagesNeededUnique(total: nat, step: nat, n: nat)
    requires step > 0
    requires n >= 1 && total <= step * n
    requires n == 1 || step * (n - 1) < total
    ensures PagesNeeded(total, step) == n
  {
    var r := PagesNeeded(total, step);
    PagesAtMost(total, step, r, n);
    PagesAtMost(total, step, n, r);
  }

  /** A page count `a` whose last-but-one page still falls short of `total`
      is no larger than any count `b` whose pages cover `total`. */
  lemma PagesAtMost(total: nat, step: nat, a: nat, b: nat)
    requires step > 0 && a >= 1 && b >= 1
    requires a == 1 || step * (a - 1) < total
    requires total <= step * b
    ensures a <= b
  {
    if a > b {
      MulMono(step, b, a - 1);
    }
  }

  lemma MulMono(k: nat, a: nat, b: nat)
    requires a <= b
    ensures k * a <= k * b
  {
    assert k * b == k * a + k * (b - a);
  }

  /** The records of the `k`-th page, none when its request failed. */
  function PageItems(remote: Remote, project: string, step: nat, k: nat): seq<TestCase> {
    match PageAt(remote, project, step * k)
    case Success(pg) => pg.items
    case Failure(_) => []
  }

  /** The records of the first `n` pages, in order. */
  function Fetched(remote: Remote, project: string, step: nat, n: nat): seq<TestCase> {
    if n == 0 then [] else Fetched(remote, project, step, n - 1) + PageItems(remote, project, step, n - 1)
  }

  /** The first `n` warm-up listing requests, in the order they are sent. */
  function WarmUrls(project: string, step: nat, n: nat): (r: seq<string>)
    ensures |r| == n
  {
    if n == 0 then [] else WarmUrls(project, step, n - 1) + [ListUrl(project, WarmQuery(project, step * (n - 1)))]
  }

  lemma {:induction false} WarmUrlsAt(project: string, step: nat, n: nat)
    ensures forall k: nat :: k < n ==> WarmUrls(project, step, n)[k] == ListUrl(project, WarmQuery(project, step * k))
  {
    if n > 0 {
      WarmUrlsAt(project, step, n - 1);
      var prev := WarmUrls(project, step, n - 1);
      assert WarmUrls(project, step, n) == prev + [ListUrl(project, WarmQuery(project, step * (n - 1)))];
      forall k: nat | k < n
        ensures WarmUrls(project, step, n)[k] == ListUrl(project, WarmQuery(project, step * k))
      {
        if k < n - 1 {
          assert WarmUrls(project, step, n)[k] == prev[k];
        }
      }
    }
  }

  /** Every one of the first `n` listing requests succeeded. */
  predicate AllFetched(remote: Remote, project: string, step: nat, n: nat) {
    forall k: nat :: k < n ==> PageAt(remote, project, step * k).Success?
  }

  /** The disk and outcome after saving the records of the first `n` pages. */
  function Warmed(disk: Disk, base: string, cwd: string, json: Json, remote: Remote, project: string,
                  step: nat, n: nat): Written {
    SaveItems(disk, base, cwd, json, project, Fetched(remote, project, step, n))
  }

  /** One round of the warm-up loop: request the page at `step * n` and,
      when it arrives, save its records onto the disk the earlier rounds left. */
  method WarmPage(ghost disk: Disk, base: string, cwd: string, json: Json, remote: Remote, project: string,
                  ghost total: nat, ghost step: nat, ghost n: nat, offset: nat, warmed: Disk)
    returns (url: string, page: Result<Page, Fault>, saved: Written)
    requires WellBehaved(remote, project, total, step)
    requires offset == step * n
    requires warmed == Warmed(disk, base, cwd, json, remote, project, step, n).disk
    requires AllFetched(remote, project, step, n) && Warmed(disk, base, cwd, json, remote, project, step, n).error.None?
    ensures url == ListUrl(project, WarmQuery(project, offset))
    ensures WarmUrls(project, step, n) + [url] == WarmUrls(project, step, n + 1)
    ensures page.Failure? ==> !AllFetched(remote, project, step, n + 1)
    ensures page.Success? ==> saved.disk == Warmed(disk, base, cwd, json, remote, project, step, n + 1).disk
    ensures page.Success? ==>
              (saved.error.None? <==> AllFetched(remote, project, step, n + 1)
                                      && Warmed(disk, base, cwd, json, remote, project, step, n + 1).error.None?)
    ensures page.Success? ==> page.value.offset == offset && page.value.limit == step > 0
    ensures page.Success? ==> page.value.offset + page.value.limit == step * (n + 1)
    ensures page.Success? ==> page.value.total.GetOr(0) == total
    ensures page.Failure? ==> Warmed(disk, base, cwd, json, remote, project, step, n + 1) == Warmed(disk, base, cwd, json, remote, project, step, n)
  {
    url := ListUrl(project, WarmQuery(project, offset));
    assert WarmUrls(project, step, n + 1) == WarmUrls(project, step, n) + [url];
    page := PageAt(remote, project, offset);
    match page
    case Failure(_) =>
      PageFailed(disk, base, cwd, json, remote, project, step, n);
      saved := Written(warmed, None, false);
    case Success(pg) =>
      Echoed(remote, project, total, step, offset);
      assert offset + step == step * (n + 1);
      PageSaved(remote, project, step, n);
      SaveItemsAppend(disk, base, cwd, json, project, Fetched(remote, project, step, n), pg.items);
      saved := SaveItems(warmed, base, cwd, json, project, pg.items);
  }

  /** `cacheAllCases`: page through the project from offset 0, asking for 500
      records at a time and moving on by the limit each response echoes,
      saving each page, pausing after each saved page (the last one included),
      until the reported total is reached; the first failure ends the pass and
      is caught, not propagated. `total` is the remote's record count and
      `step` the page size it echoes, which the pass only learns from the
      responses. */
  method CacheAllCases(disk: Disk, base: string, cwd: string, json: Json, remote: Remote, project: string,
                       ghost total: nat, ghost step: nat)
    returns (warmed: Disk, requests: seq<string>, pauses: nat, failure: Option<Fault>)
    requires WellBehaved(remote, project, total, step)
    ensures 1 <= |requests| <= PagesNeeded(total, step)
    ensures forall k: nat :: k < |requests| ==> requests[k] == ListUrl(project, WarmQuery(project, step * k))
    ensures warmed == SaveItems(disk, base, cwd, json, project, Fetched(remote, project, step, |requests|)).disk
    ensures failure.None?
        <==> AllFetched(remote, project, step, |requests|)
             && SaveItems(disk, base, cwd, json, project, Fetched(remote, project, step, |requests|)).error.None?
    ensures failure.None? ==> |requests| == PagesNeeded(total, step) && pauses == |requests|
    ensures failure.Some? ==> pauses == |requests| - 1
    ensures failure.Some? ==> AllFetched(remote, project, step, |requests| - 1)
                              && SaveItems(disk, base, cwd, json, project, Fetched(remote, project, step, |requests| - 1)).error.None?
  {
    var offset: nat := 0;
    var known: int := MaxSafeInteger;
    requests, pauses, warmed, failure := [], 0, disk, None;
    while failure.None? && known > offset
      invariant failure.None? ==> offset == step * |requests|
      invariant |requests| == 0 ==> known == MaxSafeInteger && failure.None?
      invariant failure.None? && |requests| > 0 ==> known == total
      invariant |requests| <= PagesNeeded(total, step)
      invariant |requests| > 1 ==> step * (|requests| - 1) < total
      invariant requests == WarmUrls(project, step, |requests|)
      invariant warmed == Warmed(disk, base, cwd, json, remote, project, step, |requests|).disk
      invariant failure.None?
            <==> AllFetched(remote, project, step, |requests|)
                 && Warmed(disk, base, cwd, json, remote, project, step, |requests|).error.None?
      invariant failure.None? ==> pauses == |requests|
      invariant failure.Some? ==> |requests| >= 1 && pauses == |requests| - 1
      invariant failure.Some? ==> AllFetched(remote, project, step, |requests| - 1)
                                  && Warmed(disk, base, cwd, json, remote, project, step, |requests| - 1).error.None?
      decreases (if failure.None? then 1 else 0), (if |requests| == 0 then 1 else 0),
                (if offset < total then total - offset else 0)
    {
      if |requests| > 0 {
        PagesNeededStep(total, step, |requests|);
      }
      ghost var n := |requests|;
      var url, page, saved := WarmPage(disk, base, cwd, json, remote, project, total, step, |requests|, offset, warmed);
      requests := requests + [url];
      assert |requests| - 1 == n;
      match page
      case Failure(f) =>
        failure := Some(f);
      case Success(pg) =>
        ghost var before := offset;
        offset := pg.offset + pg.limit;
        assert before < offset;
        known := pg.total.GetOr(0);
        warmed := saved.disk;
        if saved.error.Some? {
          failure := saved.error;
        } else {
          pauses := pauses + 1;
        }
    }
    ghost var m := |requests|;
    if failure.None? {
      assert total <= step * m;
      PagesNeededUnique(total, step, m);
    } else {
      assert SaveItems(disk, base, cwd, json, project, Fetched(remote, project, step, m - 1)).error.None?;
    }
    WarmUrlsAt(project, step, m);
  }

  lemma Echoed(remote: Remote, project: string, total: nat, step: nat, o: nat)
    requires WellBehaved(remote, project, total, step) && PageAt(remote, project, o).Success?
    ensures PageAt(remote, project, o).value.offset == o
    ensures step > 0
    ensures PageAt(remote, project, o).value.limit == step
    ensures PageAt(remote, project, o).value.total.GetOr(0) == total
  {
  }

  /** A failed page adds no records and ends the run of successful fetches. */
  lemma PageFailed(disk: Disk, base: string, cwd: string, json: Json, remote: Remote, project: string,
                   step: nat, n: nat)
    requires PageAt(remote, project, step * n).Failure?
    ensures Fetched(remote, project, step, n + 1) == Fetched(remote, project, step, n)
    ensures !AllFetched(remote, project, step, n + 1)
  {
    assert Fetched(remote, project, step, n) + [] == Fetched(remote, project, step, n);
  }

  /** A fetched page's records follow the earlier pages' records, and the
      run of successful fetches goes on. */
  lemma PageSaved(remote: Remote, project: string, step: nat, n: nat)
    requires PageAt(remote, project, step * n).Success?
    ensures AllFetched(remote, project, step, n + 1) <==> AllFetched(remote, project, step, n)
    ensures Fetched(remote, project, step, n + 1) == Fetched(remote, project, step, n) + PageAt(remote, project, step * n).value.items
  {
  }

  /** Another request is still within the page count when the total exceeds the offset reached. */
  lemma PagesNeededStep(total: nat, step: nat, n: nat)
    requires step > 0
    requires n >= 1 && step * n < total
    ensures n + 1 <= PagesNeeded(total, step)
  {
  }
}

=== FILE: resources.dfy ===
/** The server's test-case resources (`src/mcp-server/resources/index.ts`):
    the listing callback, which asks each project for its highest test-case
    id and lists every id from 1 up to it, appending to one array kept
    between calls, and the template handler, which reads one test case. */
module Resources {
  import opened Wrappers
  import opened Strings
  import opened Records
  import opened LocalStore
  import opened Repository

  /** `range(from, to)`: the integers from `from` up to `to`, ascending. */
  function Range(from: int, to: int): (r: seq<int>)
    ensures |r| == if to < from then 0 else to - from + 1
    ensures forall k :: 0 <= k < |r| ==> r[k] == from + k
    decreases if to < from then 0 else to - from + 1
  {
    if to < from then [] else [from] + Range(from + 1, to)
  }

  /** Exactly the integers between the bounds, inclusive, are yielded. */
  lemma RangeMembers(from: int, to: int, x: int)
    ensures x in Range(from, to) <==> from <= x <= to
  {
    if from <= x <= to {
      assert Range(from, to)[x - from] == x;
    }
  }

  datatype Resource = Resource(name: string, uri: string, mimeType: string)

  const UriScheme := "testcase://"
  const PlainText := "text/plain"

  /** The listed entry for one test case; its name is the cache key of that case. */
  function Entry(project: string, id: nat): (r: Resource)
    ensures r.name == SavePath(project, id)
    ensures r.uri == UriScheme + r.name
    ensures r.mimeType == PlainText
  {
    var name := SavePath(project, id);
    Resource(name, UriScheme + name, PlainText)
  }

  /** Distinct test cases are listed under distinct names and URIs. */
  lemma EntryInjective(p: string, i: nat, q: string, j: nat)
    ensures Entry(p, i) == Entry(q, j) <==> p == q && i == j
  {
    if Entry(p, i) == Entry(q, j) {
      var s := SavePath(p, i);
      SaveSplit(p, i);
      SaveSplit(q, j);
      DirPartOf(SaveFront(p), NatToString(i));
      DirPartOf(SaveFront(q), NatToString(j));
      assert SaveFront(p) == SaveFront(q);
      assert p == SaveFront(p)[9..|SaveFront(p)| - 11];
      assert q == SaveFront(q)[9..|SaveFront(q)| - 11];
      assert NatToString(i) == s[|SaveFront(p)| + 1..];
      assert NatToString(j) == s[|SaveFront(q)| + 1..];
      NatToStringInjective(i, j);
    }
  }

  /** The query asking for a project's highest id: its one item sorted by descending id. */
  function MaxIdQuery(project: string): Query {
    [("project", project), ("limit", "1"), ("sort", "-id")]
  }

  function MaxIdUrl(project: string): string {
    ListUrl(project, MaxIdQuery(project))
  }

  /** `items[0].id` on an empty page throws inside the `.then` callback. */
  const NoItemMessage := "Cannot read properties of undefined " + "(reading 'id')"

  /** A project's highest id, or why it could not be read. */
  function MaxIdOf(remote: Remote, project: string): (r: Result<nat, Fault>)
    ensures remote.page(MaxIdUrl(project)).Failure? ==> r == Failure(remote.page(MaxIdUrl(project)).error)
    ensures r.Success? <==> remote.page(MaxIdUrl(project)).Success? && |remote.page(MaxIdUrl(project)).value.items| > 0
    ensures r.Success? ==> r.value == remote.page(MaxIdUrl(project)).value.items[0].id
  {
    match remote.page(MaxIdUrl(project))
    case Failure(e) => Failure(e)
    case Success(page) =>
      if |page.items| == 0 then Failure(Thrown(NoItemMessage)) else Success(page.items[0].id)
  }

  /** Listed by descending id, a project's records put the largest id first:
      when the API answers the max-id query with the head of that listing,
      the value read is the largest id, and an empty project throws. */
  lemma MaxIdIsLargest(remote: Remote, project: string, all: seq<TestCase>, page: Page)
    requires forall a, b :: 0 <= a < b < |all| ==> all[a].id >= all[b].id
    requires remote.page(MaxIdUrl(project)) == Success(page)
    requires |page.items| <= |all| && page.items == all[..|page.items|]
    requires |all| > 0 ==> |page.items| > 0
    ensures |all| == 0 ==> MaxIdOf(remote, project) == Failure(Thrown(NoItemMessage))
    ensures |all| > 0 ==> MaxIdOf(remote, project).Success?
    ensures MaxIdOf(remote, project).Success? ==>
              (forall k :: 0 <= k < |all| ==> all[k].id <= MaxIdOf(remote, project).value)
              && exists k :: 0 <= k < |all| && all[k].id == MaxIdOf(remote, project).value
  {
    if |all| > 0 {
      assert page.items[0] == all[0];
      assert forall k :: 0 < k < |all| ==> all[0].id >= all[k].id;
    }
  }

  /** `Promise.all` over the projects: every highest id in project order, or
      the failure of the first project whose lookup fails. */
  function Totals(remote: Remote, projects: seq<string>): (r: Result<seq<nat>, Fault>)
    ensures r.Success? <==> forall k :: 0 <= k < |projects| ==> MaxIdOf(remote, projects[k]).Success?
    ensures r.Success? ==> |r.value| == |projects|
    ensures r.Success? ==> forall k :: 0 <= k < |projects| ==> r.value[k] == MaxIdOf(remote, projects[k]).value
    ensures r.Failure? ==> exists k :: 0 <= k < |projects| && MaxIdOf(remote, projects[k]) == Failure(r.error)
                                       && forall j :: 0 <= j < k ==> MaxIdOf(remote, projects[j]).Success?
  {
    if |projects| == 0 then Success([])
    else
      match MaxIdOf(remote, projects[0])
      case Failure(e) => Failure(e)
      case Success(n) =>
        match Totals(remote, projects[1..])
        case Failure(e) =>
          assert forall k :: 1 <= k < |projects| ==> projects[1..][k - 1] == projects[k];
          Failure(e)
        case Success(ns) => Success([n] + ns)
  }

  /** The entries for one project: ids 1 up to `maxId`, ascending. */
  function ProjectEntries(project: string, maxId: nat): (r: seq<Resource>)
    ensures |r| == maxId
    ensures forall k :: 0 <= k < maxId ==> r[k] == Entry(project, k + 1)
  {
    if maxId == 0 then [] else ProjectEntries(project, maxId - 1) + [Entry(project, maxId)]
  }

  /** The entries one successful call appends: each project's entries, in project order. */
  function Listing(projects: seq<string>, totals: seq<nat>): seq<Resource>
    requires |totals| == |projects|
  {
    if |projects| == 0 then [] else ProjectEntries(projects[0], totals[0]) + Listing(projects[1..], totals[1..])
  }

  function Sum(ns: seq<nat>): nat {
    if |ns| == 0 then 0 else ns[0] + Sum(ns[1..])
  }

  /** One entry per id of each project. */
  lemma {:induction false} ListingSize(projects: seq<string>, totals: seq<nat>)
    requires |totals| == |projects|
    ensures |Listing(projects, totals)| == Sum(totals)
  {
    if |projects| > 0 {
      ListingSize(projects[1..], totals[1..]);
    }
  }

  /** An entry is listed exactly when its id lies between 1 and its project's highest id. */
  lemma ListingMembers(projects: seq<string>, totals: seq<nat>, x: Resource)
    requires |totals| == |projects|
    ensures x in Listing(projects, totals)
        <==> exists k, id :: 0 <= k < |projects| && 1 <= id <= totals[k] && x == Entry(projects[k], id)
  {
    if x in Listing(projects, totals) {
      ListingSound(projects, totals, x);
    }
    if exists k, id :: 0 <= k < |projects| && 1 <= id <= totals[k] && x == Entry(projects[k], id) {
      var k, id :| 0 <= k < |projects| && 1 <= id <= totals[k] && x == Entry(projects[k], id);
      ListingComplete(projects, totals, k, id);
    }
  }

  /** Every listed entry names a project and an id within its total. */
  lemma {:induction false} ListingSound(projects: seq<string>, totals: seq<nat>, x: Resource)
    requires |totals| == |projects| && x in Listing(projects, totals)
    ensures exists k, id :: 0 <= k < |projects| && 1 <= id <= totals[k] && x == Entry(projects[k], id)
  {
    var head := ProjectEntries(projects[0], totals[0]);
    if x in head {
      var i :| 0 <= i < |head| && head[i] == x;
      assert 1 <= i + 1 <= totals[0] && x == Entry(projects[0], i + 1);
    } else {
      ListingSound(projects[1..], totals[1..], x);
      var k, id :| 0 <= k < |projects[1..]| && 1 <= id <= totals[1..][k] && x == Entry(projects[1..][k], id);
      assert 1 <= id <= totals[k + 1] && x == Entry(projects[k + 1], id);
    }
  }

  /** Every id within a project's total is listed. */
  lemma {:induction false} ListingComplete(projects: seq<string>, totals: seq<nat>, k: nat, id: nat)
    requires |totals| == |projects| && k < |projects| && 1 <= id <= totals[k]
    ensures Entry(projects[k], id) in Listing(projects, totals)
  {
    var head := ProjectEntries(projects[0], totals[0]);
    if k == 0 {
      assert head[id - 1] == Entry(projects[k], id);
    } else {
      assert projects[1..][k - 1] == projects[k] && totals[1..][k - 1] == totals[k];
      ListingComplete(projects[1..], totals[1..], k - 1, id);
    }
  }

  /** One more project appends its entries at the end. */
  lemma {:induction false} ListingSnoc(projects: seq<string>, totals: seq<nat>, p: string, n: nat)
    requires |totals| == |projects|
    ensures Listing(projects + [p], totals + [n]) == Listing(projects, totals) + ProjectEntries(p, n)
    decreases |projects|
  {
    var ps, ts := projects + [p], totals + [n];
    if |projects| == 0 {
      assert ps[1..] == [] && ts[1..] == [];
      assert Listing(ps, ts) == ProjectEntries(p, n) + Listing([], []);
    } else {
      assert ps[0] == projects[0] && ts[0] == totals[0];
      assert ps[1..] == projects[1..] + [p];
      assert ts[1..] == totals[1..] + [n];
      ListingSnoc(projects[1..], totals[1..], p, n);
      assert Listing(ps, ts) == ProjectEntries(projects[0], totals[0]) + Listing(ps[1..], ts[1..]);
    }
  }

  /** The listing from the `p`-th project on starts with that project's entries. */
  lemma ListingFrom(projects: seq<string>, totals: seq<nat>, p: nat)
    requires |totals| == |projects| && p < |projects|
    ensures Listing(projects[p..], totals[p..])
         == ProjectEntries(projects[p], totals[p]) + Listing(projects[p + 1..], totals[p + 1..])
  {
    assert projects[p..][1..] == projects[p + 1..] && totals[p..][1..] == totals[p + 1..];
  }

  /** The inner loop of the callback: for each id in `range(1, maxId)`,
      push that id's entry. */
  method PushProject(shared: seq<Resource>, project: string, maxId: nat) returns (pushed: seq<Resource>)
    ensures pushed == shared + ProjectEntries(project, maxId)
  {
    var ids := Range(1, maxId);
    pushed := shared;
    var i := 0;
    while i < |ids|
      invariant 0 <= i <= |ids| == maxId
      invariant pushed == shared + ProjectEntries(project, i)
    {
      pushed := pushed + [Entry(project, ids[i])];
      i := i + 1;
    }
  }

  /** The outer loop of the callback: each project's entries in turn. */
  method PushEntries(shared: seq<Resource>, projects: seq<string>, totals: seq<nat>) returns (pushed: seq<Resource>)
    requires |totals| == |projects|
    ensures pushed == shared + Listing(projects, totals)
  {
    pushed := shared;
    var p := 0;
    assert projects[p..] == projects && totals[p..] == totals;
    while p < |projects|
      invariant 0 <= p <= |projects|
      invariant pushed + Listing(projects[p..], totals[p..]) == shared + Listing(projects, totals)
    {
      ListingFrom(projects, totals, p);
      ghost var rest := Listing(projects[p + 1..], totals[p + 1..]);
      ghost var before := pushed;
      pushed := PushProject(pushed, projects[p], totals[p]);
      assert before + (ProjectEntries(projects[p], totals[p]) + rest) == pushed + rest;
      p := p + 1;
    }
  }

  /** The shared array after a call and what the call resolves with. */
  datatype Listed = Listed(shared: seq<Resource>, reply: Result<seq<Resource>, Fault>)

  /** One invocation of the listing callback: every project's highest id is
      requested; when one fails the call rejects and the array is untouched;
      otherwise the entries are appended and the whole array is returned. */
  method ListResources(shared: seq<Resource>, remote: Remote, projects: seq<string>)
    returns (r: Listed, requests: seq<string>)
    ensures |requests| == |projects| && forall k :: 0 <= k < |projects| ==> requests[k] == MaxIdUrl(projects[k])
    ensures Totals(remote, projects).Failure? ==> r == Listed(shared, Failure(Totals(remote, projects).error))
    ensures Totals(remote, projects).Success? ==> r.reply == Success(r.shared)
    ensures Totals(remote, projects).Success? ==> r.shared == shared + Listing(projects, Totals(remote, projects).value)
  {
    requests := seq(|projects|, k requires 0 <= k < |projects| => MaxIdUrl(projects[k]));
    var totals := Totals(remote, projects);
    if totals.Failure? {
      return Listed(shared, Failure(totals.error)), requests;
    }
    var pushed := PushEntries(shared, projects, totals.value);
    r := Listed(pushed, Success(pushed));
  }

  /** The callback as a function of the shared array, for reasoning about successive calls. */
  function ListCall(shared: seq<Resource>, remote: Remote, projects: seq<string>): (r: Listed)
    ensures Totals(remote, projects).Failure? ==> r == Listed(shared, Failure(Totals(remote, projects).error))
    ensures Totals(remote, projects).Success? ==> r.reply == Success(r.shared) && shared <= r.shared
    ensures Totals(remote, projects).Success? ==> |r.shared| == |shared| + Sum(Totals(remote, projects).value)
  {
    match Totals(remote, projects)
    case Failure(e) => Listed(shared, Failure(e))
    case Success(totals) =>
      ListingSize(projects, totals);
      Listed(shared + Listing(projects, totals), Success(shared + Listing(projects, totals)))
  }

  function Repeat(xs: seq<Resource>, n: nat): seq<Resource> {
    if n == 0 then [] else Repeat(xs, n - 1) + xs
  }

  lemma {:induction false} RepeatLength(xs: seq<Resource>, n: nat)
    ensures |Repeat(xs, n)| == n * |xs|
  {
    if n > 0 {
      RepeatLength(xs, n - 1);
      assert |Repeat(xs, n)| == (n - 1) * |xs| + |xs|;
    }
  }

  /** `n` successful calls starting from `shared`. */
  function Calls(shared: seq<Resource>, remote: Remote, projects: seq<string>, n: nat): seq<Resource> {
    if n == 0 then shared else ListCall(Calls(shared, remote, projects, n - 1), remote, projects).shared
  }

  /** With the same answers each time, every call appends the whole listing
      again: after `n` calls from an empty array it holds `n` copies. */
  lemma {:induction false} CallsAccumulate(remote: Remote, projects: seq<string>, n: nat)
    requires Totals(remote, projects).Success?
    ensures Calls([], remote, projects, n) == Repeat(Listing(projects, Totals(remote, projects).value), n)
    ensures |Calls([], remote, projects, n)| == n * Sum(Totals(remote, projects).value)
  {
    var l := Listing(projects, Totals(remote, projects).value);
    ListingSize(projects, Totals(remote, projects).value);
    RepeatLength(l, n);
    if n > 0 {
      CallsAccumulate(remote, projects, n - 1);
      assert Calls([], remote, projects, n) == Repeat(l, n - 1) + l;
    }
  }

  /** A template parameter: one value, or several when it repeats. */
  datatype Param = One(value: string) | Many(values: seq<string>)

  /** `p instanceof Array ? p[0] : p`: an empty array yields `undefined`. */
  function FirstValue(p: Param): (r: Option<string>)
    ensures p.One? ==> r == Some(p.value)
    ensures p.Many? ==> (r.Some? <==> |p.values| > 0)
    ensures p.Many? && |p.values| > 0 ==> r == Some(p.values[0])
  {
    match p
    case One(v) => Some(v)
    case Many(vs) => if |vs| > 0 then Some(vs[0]) else None
  }

  /** An empty array of values reads like the text `undefined`. */
  lemma EmptyParamIsUndefined(d: Disk, base: string, json: Json, remote: Remote, href: string, id: Param)
    ensures ReadTestcaseResource(d, base, json, remote, href, Many([]), id)
         == ReadTestcaseResource(d, base, json, remote, href, One("undefined"), id)
  {
    InterpolateCollides(FirstValue(Many([])), FirstValue(One("undefined")));
  }

  /** One item of a resource read's `contents`. */
  datatype Contents = Contents(uri: string, text: string)

  /** A resource read's outcome and the requests it sent. */
  datatype Read = Read(contents: Result<seq<Contents>, Fault>, requests: seq<string>)

  /** The `testcase://projects/{project}/test-cases/{id}` handler: the first
      value of each parameter is looked up; a failed lookup rejects the read. */
  function ReadTestcaseResource(d: Disk, base: string, json: Json, remote: Remote,
                                href: string, project: Param, id: Param): (r: Read)
    ensures var l := GetTestCase(d, base, json, remote, Interpolate(FirstValue(project)), Interpolate(FirstValue(id)));
      && r.requests == l.requests
      && (r.contents.Success? <==> l.text.Success?)
      && (r.contents.Success? ==> r.contents.value == [Contents(href, l.text.value)])
      && (r.contents.Failure? ==> r.contents.error == l.text.error)
  {
    var l := GetTestCase(d, base, json, remote, Interpolate(FirstValue(project)), Interpolate(FirstValue(id)));
    Read(l.text.MapValue(text => [Contents(href, text)]), l.requests)
  }

  /** A repeated parameter reads the same test case as its first value alone. */
  lemma RepeatedParamsUseFirst(d: Disk, base: string, json: Json, remote: Remote, href: string,
                               p: string, ps: seq<string>, i: string, rest: seq<string>)
    ensures ReadTestcaseResource(d, base, json, remote, href, Many([p] + ps), Many([i] + rest))
         == ReadTestcaseResource(d, base, json, remote, href, One(p), One(i))
  {
  }
}

=== FILE: strings.dfy ===
/** String helpers with the JavaScript semantics the server relies on:
    `trimEnd`, `Array.prototype.join`, `String.prototype.split` on one
    character, one-leading-slash removal, decimal rendering of numbers and
    template interpolation of possibly-undefined values. */
module Strings {
  import opened Wrappers

  /** `w` occurs in `s` starting at index `i`. */
  predicate StartsAt(s: string, i: nat, w: string) {
    i + |w| <= |s| && s[i..i + |w|] == w
  }

  /** An occurrence inside the middle part of a concatenation is an occurrence in the whole. */
  lemma StartsAtInside(x: string, m: string, y: string, i: nat, w: string)
    requires i + |w| <= |m|
    ensures StartsAt(x + m + y, |x| + i, w) <==> StartsAt(m, i, w)
  {
    assert (x + m + y)[|x| + i..|x| + i + |w|] == m[i..i + |w|];
  }

  /** One differing character rules an occurrence out. */
  lemma NotStartsAt(s: string, i: nat, w: string, k: nat)
    requires k < |w| && i + k < |s| && s[i + k] != w[k]
    ensures !StartsAt(s, i, w)
  {
    if i + |w| <= |s| {
      assert s[i..i + |w|][k] == s[i + k];
    }
  }

  /** ECMAScript WhiteSpace and LineTerminator code points: what `trimEnd` removes. */
  predicate IsJsWhiteSpace(c: char) {
    || c == '\t' || c == '\n' || c == '\U{000B}' || c == '\U{000C}' || c == '\r' || c == ' '
    || c == '\U{00A0}' || c == '\U{1680}' || ('\U{2000}' <= c <= '\U{200A}')
    || c == '\U{2028}' || c == '\U{2029}' || c == '\U{202F}' || c == '\U{205F}'
    || c == '\U{3000}' || c == '\U{FEFF}'
  }

  /** ECMAScript line terminators: the characters a regular-expression `.` does not match. */
  predicate IsLineTerminator(c: char) {
    c == '\n' || c == '\r' || c == '\U{2028}' || c == '\U{2029}'
  }

  /** `trimEnd`: the longest prefix of `s` that does not end in white space. */
  function TrimEnd(s: string): (r: string)
    ensures r <= s
    ensures |r| == 0 || !IsJsWhiteSpace(r[|r| - 1])
    ensures forall i :: |r| <= i < |s| ==> IsJsWhiteSpace(s[i])
  {
    if |s| == 0 || !IsJsWhiteSpace(s[|s| - 1]) then s else TrimEnd(s[..|s| - 1])
  }

  /** Trimming never reaches into a prefix that ends in a non-white-space character. */
  lemma TrimEndKeeps(a: string, b: string)
    requires |a| > 0 && !IsJsWhiteSpace(a[|a| - 1])
    ensures a <= TrimEnd(a + b)
  {
    assert (a + b)[|a| - 1] == a[|a| - 1];
  }

  /** A prefix that ends in a non-white-space character survives trimming. */
  lemma TrimEndHead(head: string, s: string)
    requires |head| > 0 && !IsJsWhiteSpace(head[|head| - 1]) && head <= s
    ensures head <= TrimEnd(s)
  {
    assert s == head + s[|head|..];
    TrimEndKeeps(head, s[|head|..]);
  }

  /** `Array.prototype.join(sep)` on strings. */
  function Join(parts: seq<string>, sep: string): string
  {
    if |parts| == 0 then ""
    else if |parts| == 1 then parts[0]
    else parts[0] + sep + Join(parts[1..], sep)
  }

  /** The first part opens the joined text. */
  lemma JoinHead(parts: seq<string>, sep: string)
    requires |parts| > 0
    ensures parts[0] <= Join(parts, sep)
  {
  }

  /** Joining one more part appends the separator and that part. */
  lemma {:induction false} JoinSnoc(parts: seq<string>, x: string, sep: string)
    requires |parts| > 0
    ensures Join(parts + [x], sep) == Join(parts, sep) + sep + x
  {
    if |parts| == 1 {
      assert parts + [x] == [parts[0], x];
    } else {
      assert (parts + [x])[1..] == parts[1..] + [x];
      JoinSnoc(parts[1..], x, sep);
    }
  }

  /** `split(c)`: the pieces between the occurrences of `c`; joining them back with `c` gives `s`. */
  function Split(s: string, c: char): (r: seq<string>)
    ensures |r| >= 1
    ensures Join(r, [c]) == s
    ensures forall k :: 0 <= k < |r| ==> c !in r[k]
  {
    if |s| == 0 then [""]
    else
      var rest := Split(s[1..], c);
      if s[0] == c then
        assert Join([""] + rest, [c]) == [c] + Join(rest, [c]) by {
          assert ([""] + rest)[1..] == rest;
        }
        [""] + rest
      else
        var r := [[s[0]] + rest[0]] + rest[1..];
        assert Join(r, [c]) == s by {
          if |rest| > 1 {
            assert r[1..] == rest[1..];
          }
        }
        r
  }

  /** Splitting distributes over an occurrence of the separator. */
  lemma {:induction false} SplitConcat(a: string, b: string, c: char)
    ensures Split(a + [c] + b, c) == Split(a, c) + Split(b, c)
  {
    if |a| == 0 {
      assert a + [c] + b == [c] + b;
      assert ([c] + b)[1..] == b;
    } else {
      assert (a + [c] + b)[1..] == a[1..] + [c] + b;
      SplitConcat(a[1..], b, c);
    }
  }

  /** Splitting a join of separator-free parts gives the parts back. */
  lemma {:induction false} SplitJoin(parts: seq<string>, c: char)
    requires |parts| >= 1
    requires forall k :: 0 <= k < |parts| ==> c !in parts[k]
    ensures Split(Join(parts, [c]), c) == parts
  {
    if |parts| == 1 {
      SplitFree(parts[0], c);
    } else {
      SplitJoin(parts[1..], c);
      SplitConcat(parts[0], Join(parts[1..], [c]), c);
      SplitFree(parts[0], c);
    }
  }

  /** A string without the separator splits into itself alone. */
  lemma {:induction false} SplitFree(s: string, c: char)
    requires c !in s
    ensures Split(s, c) == [s]
  {
    if |s| > 0 {
      assert s[0] in s;
      assert forall x :: x in s[1..] ==> x in s;
      SplitFree(s[1..], c);
    }
  }

  /** A line without the separator, the separator, and the rest split into that line and the rest's pieces. */
  lemma SplitLine(a: string, b: string, c: char)
    requires c !in a
    ensures Split(a + [c] + b, c) == [a] + Split(b, c)
  {
    SplitConcat(a, b, c);
    SplitFree(a, c);
  }

  /** The directory part of a path as `split('/').slice(0, -1).join('/')` computes it. */
  function DirPart(path: string): string
  {
    var parts := Split(path, '/');
    Join(parts[..|parts| - 1], "/")
  }

  /** `DirPart` is everything before the last `/`, or empty when there is none. */
  lemma DirPartSpec(path: string)
    ensures '/' !in path ==> DirPart(path) == ""
    ensures '/' in path ==> exists tail :: path == DirPart(path) + "/" + tail && '/' !in tail
  {
    var parts := Split(path, '/');
    if |parts| == 1 {
      assert path == parts[0];
    } else {
      var init := parts[..|parts| - 1];
      assert init + [parts[|parts| - 1]] == parts;
      JoinSnoc(init, parts[|parts| - 1], "/");
      assert path == DirPart(path) + "/" + parts[|parts| - 1];
      assert path[|DirPart(path)|] == '/';
    }
  }

  /** Any split of a path at a `/` followed by a separator-free tail is the split at its last `/`. */
  lemma DirPartOf(front: string, tail: string)
    requires '/' !in tail
    ensures DirPart(front + "/" + tail) == front
  {
    SplitConcat(front, tail, '/');
    SplitFree(tail, '/');
    var parts := Split(front + "/" + tail, '/');
    assert parts[..|parts| - 1] == Split(front, '/');
  }

  /** `replace(/^\//, '')`: at most one leading `/` removed. */
  function StripLeadingSlash(s: string): (r: string)
    ensures (r == s && (|s| == 0 || s[0] != '/')) || "/" + r == s
  {
    if |s| > 0 && s[0] == '/' then s[1..] else s
  }

  /** `base + `/${p.replace(/^\//, '')}``: a path placed under a base. */
  function UnderBase(base: string, p: string): string {
    base + "/" + StripLeadingSlash(p)
  }

  /** Exactly one separator joins base and path: a single leading `/` of the
      path is absorbed, a second one is kept. */
  lemma UnderBaseOneSlash(base: string, p: string)
    ensures UnderBase(base, "/" + p) == base + "/" + p
    ensures (|p| == 0 || p[0] != '/') ==> UnderBase(base, p) == base + "/" + p
    ensures UnderBase(base, p) == UnderBase(base, "/" + p) <==> (|p| == 0 || p[0] != '/')
  {
    assert ("/" + p)[1..] == p;
    if |p| > 0 && p[0] == '/' {
      assert |UnderBase(base, p)| < |UnderBase(base, "/" + p)|;
    }
  }

  predicate IsDigit(c: char) {
    '0' <= c <= '9'
  }

  predicate AllDigits(s: string) {
    forall i :: 0 <= i < |s| ==> IsDigit(s[i])
  }

  function DigitChar(d: nat): (c: char)
    requires d < 10
    ensures IsDigit(c)
  {
    (d + '0' as int) as char
  }

  function DigitValue(c: char): nat
    requires IsDigit(c)
  {
    (c as int - '0' as int) as nat
  }

  /** The number a string of decimal digits denotes. */
  function ParseNat(s: string): nat
    requires AllDigits(s)
  {
    if |s| == 0 then 0 else ParseNat(s[..|s| - 1]) * 10 + DigitValue(s[|s| - 1])
  }

  /** The decimal rendering of a non-negative integer (`${n}` for a safe integer):
      digits only, without a leading zero, denoting `n`. */
  function NatToString(n: nat): (r: string)
    ensures |r| >= 1 && AllDigits(r)
    ensures |r| > 1 ==> r[0] != '0'
    ensures ParseNat(r) == n
    decreases n
  {
    if n < 10 then [DigitChar(n)]
    else
      var front := NatToString(n / 10);
      var r := front + [DigitChar(n % 10)];
      assert r[..|r| - 1] == front;
      r
  }

  /** Different numbers render differently. */
  lemma NatToStringInjective(m: nat, n: nat)
    requires NatToString(m) == NatToString(n)
    ensures m == n
  {
  }

  /** Template interpolation of a string that may be `undefined`. */
  function Interpolate(v: Option<string>): (r: string)
    ensures v.Some? ==> r == v.value
    ensures v.None? ==> r == "undefined"
  {
    v.GetOr("undefined")
  }

  /** Interpolation loses exactly one distinction: an absent value reads
      like the text `undefined`. */
  lemma InterpolateCollides(a: Option<string>, b: Option<string>)
    ensures Interpolate(a) == Interpolate(b)
        <==> a == b || (a.None? && b == Some("undefined")) || (a == Some("undefined") && b.None?)
  {
  }
}

=== FILE: tools.dfy ===
/** The server's tools (`src/mcp-server/tools/index.ts`): extracting a
    project key and a test-case id from a path or URL with the expression
    `projects\/(?<project>.+)?\/testcases\/(?<id>\d+)?(\/|$)`, looking the
    test case up, and wrapping the outcome (or any error) as a tool result. */
module Tools {
  import opened Wrappers
  import opened Strings
  import opened Records
  import opened LocalStore
  import opened Repository

  const ProjectsMark := "projects/"
  const TestcasesMark := "/testcases/"

  /** The length of the run of digits starting at `j`. */
  function DigitRun(s: string, j: nat): (m: nat)
    requires j <= |s|
    ensures j + m <= |s|
    ensures forall k :: j <= k < j + m ==> IsDigit(s[k])
    ensures j + m == |s| || !IsDigit(s[j + m])
    decreases |s| - j
  {
    if j == |s| || !IsDigit(s[j]) then 0 else 1 + DigitRun(s, j + 1)
  }

  /** After `/testcases/`: the greedy `(\d+)?` takes the whole digit run, and
      backing off would leave a digit where `(\/|$)` needs a `/` or the end,
      so the match goes through exactly when the run is followed by either. */
  predicate TailOk(s: string, j: nat)
    requires j <= |s|
  {
    var e := j + DigitRun(s, j);
    e == |s| || s[e] == '/'
  }

  /** The expression matches at `i` with a project capture of `len` characters
      (`.` takes anything but a line terminator; `len == 0` is the skipped group). */
  predicate MatchesAt(s: string, i: nat, len: nat) {
    i + |ProjectsMark| + len + |TestcasesMark| <= |s|
    && StartsAt(s, i, ProjectsMark)
    && (forall k :: i + |ProjectsMark| <= k < i + |ProjectsMark| + len ==> !IsLineTerminator(s[k]))
    && StartsAt(s, i + |ProjectsMark| + len, TestcasesMark)
    && TailOk(s, i + |ProjectsMark| + len + |TestcasesMark|)
  }

  /** The longest project capture at `i` no longer than `len`: `.+` is greedy
      and backs off one character at a time, the skipped group coming last. */
  function LongestAt(s: string, i: nat, len: nat): (r: Option<nat>)
    ensures r.Some? ==> r.value <= len && MatchesAt(s, i, r.value)
    ensures r.Some? ==> forall l: nat :: r.value < l <= len ==> !MatchesAt(s, i, l)
    ensures r.None? ==> forall l: nat :: l <= len ==> !MatchesAt(s, i, l)
  {
    if MatchesAt(s, i, len) then Some(len)
    else if len == 0 then None
    else
      var r := LongestAt(s, i, len - 1);
      assert forall l: nat :: (r.Some? && r.value < l <= len) || (r.None? && l <= len) ==>
        l == len || !MatchesAt(s, i, l);
      r
  }

  /** The leftmost position from `i` on where the expression matches, with
      its longest project capture. */
  function FindFrom(s: string, i: nat): (r: Option<(nat, nat)>)
    ensures r.Some? ==> i <= r.value.0 && MatchesAt(s, r.value.0, r.value.1)
    ensures r.Some? ==> forall l: nat :: r.value.1 < l ==> !MatchesAt(s, r.value.0, l)
    ensures r.Some? ==> forall j: nat, l: nat :: i <= j < r.value.0 ==> !MatchesAt(s, j, l)
    ensures r.None? ==> forall j: nat, l: nat :: i <= j ==> !MatchesAt(s, j, l)
    decreases |s| + 1 - i
  {
    if i > |s| then None
    else match LongestAt(s, i, |s|)
      case Some(len) => Some((i, len))
      case None => FindFrom(s, i + 1)
  }

  /** The named groups, `undefined` when a group took no part (or nothing matched). */
  datatype PathParams = PathParams(project: Option<string>, id: Option<string>)

  /** `exec(path)?.groups ?? {}`: the captures of the leftmost match with
      the longest project capture. */
  function ParsePath(s: string): PathParams
  {
    match FindFrom(s, 0)
    case None => PathParams(None, None)
    case Some((i, len)) => Groups(s, i, len)
  }

  /** The groups of a match at `i` whose project capture has `len` characters. */
  function Groups(s: string, i: nat, len: nat): PathParams
    requires i + |ProjectsMark| + len + |TestcasesMark| <= |s|
  {
    var p := i + |ProjectsMark|;
    var j := p + len + |TestcasesMark|;
    var m := DigitRun(s, j);
    PathParams(if len == 0 then None else Some(s[p..p + len]),
               if m == 0 then None else Some(s[j..j + m]))
  }

  /** With no match anywhere, neither group is defined. */
  lemma ParseUnmatched(s: string)
    requires forall i: nat, l: nat :: !MatchesAt(s, i, l)
    ensures ParsePath(s) == PathParams(None, None)
  {
    assert FindFrom(s, 0).None?;
  }

  /** A defined project is a non-empty run of characters other than line
      terminators, and a defined id a non-empty run of digits. */
  lemma ParseCaptures(s: string)
    ensures ParsePath(s).project.Some? ==>
              |ParsePath(s).project.value| > 0
              && forall k :: 0 <= k < |ParsePath(s).project.value| ==> !IsLineTerminator(ParsePath(s).project.value[k])
    ensures ParsePath(s).id.Some? ==> |ParsePath(s).id.value| > 0 && AllDigits(ParsePath(s).id.value)
  {
    match FindFrom(s, 0)
    case None =>
    case Some((i, len)) =>
      var p := i + |ProjectsMark|;
      var j := p + len + |TestcasesMark|;
      var m := DigitRun(s, j);
      assert ParsePath(s) == Groups(s, i, len);
      assert MatchesAt(s, i, len);
  }

  /** A digit run is exactly a digit string followed by the end or a non-digit. */
  lemma {:induction false} DigitRunAll(s: string, j: nat, d: string)
    requires j + |d| <= |s| && s[j..j + |d|] == d && AllDigits(d)
    requires j + |d| == |s| || !IsDigit(s[j + |d|])
    ensures DigitRun(s, j) == |d|
    decreases |d|
  {
    if |d| > 0 {
      assert s[j] == d[0];
      assert s[j + 1..j + 1 + |d[1..]|] == d[1..];
      DigitRunAll(s, j + 1, d[1..]);
    }
  }

  /** No capture longer than the true project fits: `/testcases/` cannot
      start inside the literal `/testcases/` or the id digits that follow it. */
  lemma NoLongerProject(p: string, d: string, l: nat)
    requires |d| > 0 && AllDigits(d) && |p| < l
    ensures !MatchesAt(ProjectsMark + p + TestcasesMark + d, 0, l)
  {
    var s := ProjectsMark + p + TestcasesMark + d;
    var q := 9 + l;
    if q + 11 <= |s| {
      var k := q - (9 + |p|);
      assert 1 <= k <= |d|;
      if k < 10 {
        assert s[q] == TestcasesMark[k];
        NotStartsAt(s, q, TestcasesMark, 0);
      } else if k == 10 {
        assert s[q + 1] == d[0];
        NotStartsAt(s, q, TestcasesMark, 1);
      } else {
        assert s[q] == d[k - 11];
        NotStartsAt(s, q, TestcasesMark, 0);
      }
    }
  }

  /** The pieces of a built path sit where they were put. */
  lemma BuiltPieces(p: string, d: string)
    ensures StartsAt(ProjectsMark + p + TestcasesMark + d, 0, ProjectsMark)
    ensures StartsAt(ProjectsMark + p + TestcasesMark + d, 9 + |p|, TestcasesMark)
    ensures (ProjectsMark + p + TestcasesMark + d)[9..9 + |p|] == p
    ensures (ProjectsMark + p + TestcasesMark + d)[20 + |p|..] == d
  {
    var s := ProjectsMark + p + TestcasesMark + d;
    assert s[..9] == ProjectsMark;
    assert s[9 + |p|..9 + |p| + 11] == TestcasesMark;
  }

  /** The built path matches at its start with the true project capture. */
  lemma BuiltMatches(p: string, d: string)
    requires forall k :: 0 <= k < |p| ==> !IsLineTerminator(p[k])
    requires AllDigits(d)
    ensures MatchesAt(ProjectsMark + p + TestcasesMark + d, 0, |p|)
    ensures DigitRun(ProjectsMark + p + TestcasesMark + d, 20 + |p|) == |d|
  {
    var s := ProjectsMark + p + TestcasesMark + d;
    BuiltPieces(p, d);
    var mid := s[9..9 + |p|];
    forall k | 9 <= k < 9 + |p|
      ensures !IsLineTerminator(s[k])
    {
      assert s[k] == mid[k - 9];
    }
    assert s[20 + |p|..20 + |p| + |d|] == d;
    DigitRunAll(s, 20 + |p|, d);
  }

  /** The groups of a match at the start with a non-empty id. */
  lemma GroupsAtStart(s: string, len: nat, m: nat)
    requires 20 + len <= |s| && DigitRun(s, 20 + len) == m && m > 0
    ensures Groups(s, 0, len) == PathParams(if len == 0 then None else Some(s[9..9 + len]),
                                            Some(s[20 + len..20 + len + m]))
  {
  }

  /** A built path is found at its start with the true project capture. */
  lemma FoundBuilt(p: string, d: string)
    requires forall k :: 0 <= k < |p| ==> !IsLineTerminator(p[k])
    requires |d| > 0 && AllDigits(d)
    ensures ParsePath(ProjectsMark + p + TestcasesMark + d) == Groups(ProjectsMark + p + TestcasesMark + d, 0, |p|)
    ensures DigitRun(ProjectsMark + p + TestcasesMark + d, 20 + |p|) == |d|
  {
    BuiltLongest(p, d);
    assert FindFrom(ProjectsMark + p + TestcasesMark + d, 0) == Some((0, |p|));
  }

  /** `projects/<p>/testcases/<n>` reads back as `p` (or `undefined` when `p`
      is empty) and the decimal digits of `n`, whatever `p` contains, other
      than a line terminator: the greedy capture stops at the last `/testcases/`. */
  lemma ParseBuilt(p: string, n: nat)
    requires forall k :: 0 <= k < |p| ==> !IsLineTerminator(p[k])
    ensures ParsePath(ProjectsMark + p + TestcasesMark + NatToString(n))
         == PathParams(if p == "" then None else Some(p), Some(NatToString(n)))
  {
    var d := NatToString(n);
    var s := ProjectsMark + p + TestcasesMark + d;
    FoundBuilt(p, d);
    BuiltGroups(p, d);
  }

  /** The groups of a built path are its pieces. */
  lemma BuiltGroups(p: string, d: string)
    requires forall k :: 0 <= k < |p| ==> !IsLineTerminator(p[k])
    requires |d| > 0 && AllDigits(d)
    ensures Groups(ProjectsMark + p + TestcasesMark + d, 0, |p|)
         == PathParams(if p == "" then None else Some(p), Some(d))
  {
    var s := ProjectsMark + p + TestcasesMark + d;
    var len, m := |p|, |d|;
    BuiltMatches(p, d);
    GroupsAtStart(s, len, m);
    BuiltPieces(p, d);
    assert s[9..9 + len] == p;
    assert s[20 + len..20 + len + m] == d;
    assert (p == "") == (len == 0);
  }

  lemma BuiltLongest(p: string, d: string)
    requires forall k :: 0 <= k < |p| ==> !IsLineTerminator(p[k])
    requires |d| > 0 && AllDigits(d)
    ensures LongestAt(ProjectsMark + p + TestcasesMark + d, 0, |ProjectsMark + p + TestcasesMark + d|) == Some(|p|)
    ensures DigitRun(ProjectsMark + p + TestcasesMark + d, 20 + |p|) == |d|
  {
    var s := ProjectsMark + p + TestcasesMark + d;
    BuiltMatches(p, d);
    forall l: nat | |p| < l
      ensures !MatchesAt(s, 0, l)
    {
      NoLongerProject(p, d, l);
    }
    LongestAtFinds(s, 0, |s|, |p|);
  }

  /** The longest search finds a capture that matches with nothing longer matching. */
  lemma {:induction false} LongestAtFinds(s: string, i: nat, len: nat, best: nat)
    requires best <= len && MatchesAt(s, i, best)
    requires forall l: nat :: best < l ==> !MatchesAt(s, i, l)
    ensures LongestAt(s, i, len) == Some(best)
    decreases len
  {
    if len > best {
      LongestAtFinds(s, i, len - 1, best);
    }
  }

  /** `projects/WEB/testcases/42` gives project `WEB` and id `42`. */
  lemma ParseSimple()
    ensures ParsePath("projects/" + "WEB" + "/testcases/" + "42") == PathParams(Some("WEB"), Some("42"))
  {
    assert NatToString(42) == "42";
    ParseBuilt("WEB", 42);
  }

  /** The project capture is greedy: `projects/a/testcases/1/testcases/2`
      gives project `a/testcases/1` and id `2`. */
  lemma ParseGreedy()
    ensures ParsePath("projects/" + "a/testcases/1" + "/testcases/" + "2") == PathParams(Some("a/testcases/1"), Some("2"))
  {
    assert NatToString(2) == "2";
    ParseBuilt("a/testcases/1", 2);
  }

  /** Where a path built from a slash-free project, digits and a slash-free
      tail has its `/` characters. */
  lemma SlashesOf(p: string, d: string, tail: string, k: nat)
    requires '/' !in p && '/' !in tail && AllDigits(d)
    requires k < |ProjectsMark + p + TestcasesMark + d + tail|
    requires (ProjectsMark + p + TestcasesMark + d + tail)[k] == '/'
    ensures k == 8 || k == 9 + |p| || k == 19 + |p|
  {
  }

  /** In such a path the only candidate match starts at 0 and captures `p`. */
  lemma OnlyCandidate(p: string, d: string, tail: string, i: nat, l: nat)
    requires '/' !in p && '/' !in tail && AllDigits(d)
    requires MatchesAt(ProjectsMark + p + TestcasesMark + d + tail, i, l)
    ensures i == 0 && l == |p|
  {
    var s := ProjectsMark + p + TestcasesMark + d + tail;
    var q := i + 9 + l;
    assert s[i + 8] == ProjectsMark[8];
    assert s[q] == TestcasesMark[0] && s[q + 10] == TestcasesMark[10];
    SlashesOf(p, d, tail, i + 8);
    SlashesOf(p, d, tail, q);
    SlashesOf(p, d, tail, q + 10);
  }

  /** Digits followed by something other than `/` leave `(\/|$)` unmatched. */
  lemma NoTail(p: string, d: string, tail: string)
    requires AllDigits(d) && |tail| > 0 && !IsDigit(tail[0]) && tail[0] != '/'
    ensures !TailOk(ProjectsMark + p + TestcasesMark + d + tail, 20 + |p|)
  {
    var s := ProjectsMark + p + TestcasesMark + d + tail;
    assert s[20 + |p|..20 + |p| + |d|] == d;
    assert s[20 + |p| + |d|] == tail[0];
    DigitRunAll(s, 20 + |p|, d);
  }

  /** Digits followed by anything but a `/` do not end a match:
      `projects/WEB/testcases/42abc` yields neither a project nor an id. */
  lemma TrailingJunk(p: string, d: string, tail: string)
    requires '/' !in p && '/' !in tail && AllDigits(d)
    requires |tail| > 0 && !IsDigit(tail[0])
    ensures forall i: nat, l: nat :: !MatchesAt(ProjectsMark + p + TestcasesMark + d + tail, i, l)
    ensures ParsePath(ProjectsMark + p + TestcasesMark + d + tail) == PathParams(None, None)
  {
    var s := ProjectsMark + p + TestcasesMark + d + tail;
    NoTail(p, d, tail);
    forall i: nat, l: nat
      ensures !MatchesAt(s, i, l)
    {
      if MatchesAt(s, i, l) {
        OnlyCandidate(p, d, tail, i, l);
      }
    }
    ParseUnmatched(s);
  }

  lemma ParseTrailing()
    ensures ParsePath("projects/" + "WEB" + "/testcases/" + "42" + "abc") == PathParams(None, None)
  {
    TrailingJunk("WEB", "42", "abc");
  }

  // ----- Tool results -----

  /** One item of a tool result's `content` (only `type: 'text'` occurs). */
  datatype Content = Text(text: string)

  /** What a tool handler returns; `isError` is absent on success. */
  datatype ToolResult = ToolResult(content: seq<Content>, isError: Option<bool>)

  const ErrorPrefix := "Error: "

  /** The `try`/`catch` around a handler: the text on success, otherwise the
      error's message after `Error: ` with `isError` set. */
  function Respond(r: Result<string, Fault>): (t: ToolResult)
    ensures |t.content| == 1
    ensures t.isError.None? <==> r.Success?
    ensures r.Success? ==> t.content[0].text == r.value
    ensures r.Failure? ==> t.isError == Some(true) && t.content[0].text == ErrorPrefix + Message(r.error)
  {
    match r
    case Success(text) => ToolResult([Text(text)], None)
    case Failure(f) => ToolResult([Text(ErrorPrefix + Message(f))], Some(true))
  }

  /** How a client reads a tool result back: the text, or the message of a
      reported error; `None` for a result of any other shape. */
  function Recover(t: ToolResult): (r: Option<Result<string, string>>)
    ensures r.Some? ==> |t.content| == 1
    ensures r.Some? && r.value.Success? ==> t.isError.None? && r.value.value == t.content[0].text
    ensures r.Some? && r.value.Failure? ==> t.content[0].text == ErrorPrefix + r.value.error
  {
    if |t.content| != 1 then None
    else if t.isError.None? then Some(Success(t.content[0].text))
    else if t.isError == Some(true) && ErrorPrefix <= t.content[0].text
    then Some(Failure(t.content[0].text[|ErrorPrefix|..]))
    else None
  }

  /** A tool result gives back exactly the outcome it reports: the text, or
      the error as its message reads (a bare rejection reads `undefined`). */
  lemma RespondRecover(r: Result<string, Fault>)
    ensures Recover(Respond(r)) == Some(r.MapError(Message))
  {
    if r.Failure? {
      var text := ErrorPrefix + Message(r.error);
      assert ErrorPrefix <= text;
      assert text[|ErrorPrefix|..] == Message(r.error);
    }
  }

  /** Two outcomes give the same tool result exactly when they agree once
      errors are reduced to their messages. */
  lemma RespondSame(r1: Result<string, Fault>, r2: Result<string, Fault>)
    ensures Respond(r1) == Respond(r2) <==> r1.MapError(Message) == r2.MapError(Message)
  {
    RespondRecover(r1);
    RespondRecover(r2);
  }

  /** A promise rejected with a bare status message has no `message`, so the
      error result reads `Error: undefined`. */
  lemma RejectionReportsUndefined(reason: string)
    ensures Respond(Failure(Rejected(reason))) == ToolResult([Text(ErrorPrefix + "undefined")], Some(true))
  {
  }

  /** A handler's result and the requests it sent. */
  datatype Called = Called(result: ToolResult, requests: seq<string>)

  /** The `get_testcase` handler: the captures, `undefined` where missing,
      are looked up, and the outcome is wrapped as a tool result. */
  function GetTestcaseTool(d: Disk, base: string, json: Json, remote: Remote, path: string): (r: Called)
    ensures r.requests == GetTestCase(d, base, json, remote,
              Interpolate(ParsePath(path).project), Interpolate(ParsePath(path).id)).requests
    ensures Recover(r.result) == Some(GetTestCase(d, base, json, remote,
              Interpolate(ParsePath(path).project), Interpolate(ParsePath(path).id)).text.MapError(Message))
  {
    var pp := ParsePath(path);
    var l := GetTestCase(d, base, json, remote, Interpolate(pp.project), Interpolate(pp.id));
    RespondRecover(l.text);
    Called(Respond(l.text), l.requests)
  }

  /** A path that names a project and an id looks that test case up. */
  lemma ToolOnBuiltPath(d: Disk, base: string, json: Json, remote: Remote, p: string, n: nat)
    requires |p| > 0 && forall k :: 0 <= k < |p| ==> !IsLineTerminator(p[k])
    ensures GetTestcaseTool(d, base, json, remote, ProjectsMark + p + TestcasesMark + NatToString(n)).requests
         == GetTestCase(d, base, json, remote, p, NatToString(n)).requests
    ensures Recover(GetTestcaseTool(d, base, json, remote, ProjectsMark + p + TestcasesMark + NatToString(n)).result)
         == Some(GetTestCase(d, base, json, remote, p, NatToString(n)).text.MapError(Message))
  {
    ParseBuilt(p, n);
  }

  /** A path the expression does not match is still looked up, as the
      project `undefined` and the id `undefined`. */
  lemma ToolOnUnmatchedPath(d: Disk, base: string, json: Json, remote: Remote, path: string)
    requires forall i: nat, l: nat :: !MatchesAt(path, i, l)
    requires !Exists(d, ReadPath(base, CaseUri("undefined", "undefined")))
    ensures GetTestcaseTool(d, base, json, remote, path).requests == [CaseUri("undefined", "undefined")]
    ensures GetTestcaseTool(d, base, json, remote, path).result
         == Respond(remote.testCase(CaseUri("undefined", "undefined"))
                      .MapValue(tc => Formatter.Format(tc, "undefined")))
  {
    ParseUnmatched(path);
    MissingFileAsksRemote(d, base, json, remote, "undefined", "undefined");
  }

  // ----- generate_test_from_tms -----

  /** The guidelines document the prompt embeds, relative to the installation directory. */
  const GuidelinesPath := "resources/testing-docs/" + "testing-guidelines-long.md"

  /** The prompt's fixed text around its three slots; the wording itself is
      a parameter. */
  datatype Template = Template(head: string, afterFile: string, afterCase: string, tail: string)

  /** The prompt with the file, the test-case text and the guidelines
      interpolated, in that order. */
  function GeneratePrompt(t: Template, file: string, testcase: string, docs: string): string {
    t.head + file + t.afterFile + testcase + t.afterCase + docs + t.tail
  }

  /** Each slot sits at the offset the fixed text and the earlier slots
      determine, so the three values can be read back from the prompt. */
  lemma PromptSlots(t: Template, file: string, testcase: string, docs: string)
    ensures var g := GeneratePrompt(t, file, testcase, docs);
      var a := |t.head| + |file|;
      var b := a + |t.afterFile| + |testcase|;
      var c := b + |t.afterCase| + |docs|;
      && |g| == c + |t.tail|
      && g[..|t.head|] == t.head
      && g[|t.head|..a] == file
      && g[a..a + |t.afterFile|] == t.afterFile
      && g[a + |t.afterFile|..b] == testcase
      && g[b..b + |t.afterCase|] == t.afterCase
      && g[b + |t.afterCase|..c] == docs
      && g[c..] == t.tail
  {
  }

  /** The `generate_test_from_tms` handler: the test case is looked up
      first; only when that succeeds is the guidelines document read; any
      error becomes the error result. */
  function GenerateTestFromTms(d: Disk, base: string, json: Json, remote: Remote, t: Template,
                               file: string, url: string): (r: Called)
    ensures var l := GetTestCase(d, base, json, remote,
                                 Interpolate(ParsePath(url).project), Interpolate(ParsePath(url).id));
      && r.requests == l.requests
      && (l.text.Failure? ==> r.result == Respond(Failure(l.text.error)))
      && (l.text.Success? && ReadFile(d, base, GuidelinesPath).Failure? ==>
            r.result == Respond(Failure(ReadFile(d, base, GuidelinesPath).error)))
      && (r.result.isError.None? <==> l.text.Success? && ReadPath(base, GuidelinesPath) in d.files)
      && (r.result.isError.None? ==>
            r.result.content == [Text(GeneratePrompt(t, file, l.text.value, d.files[ReadPath(base, GuidelinesPath)]))])
  {
    var pp := ParsePath(url);
    var l := GetTestCase(d, base, json, remote, Interpolate(pp.project), Interpolate(pp.id));
    var outcome :=
      match l.text
      case Failure(e) => Failure(e)
      case Success(testcase) =>
        match ReadFile(d, base, GuidelinesPath)
        case Failure(e) => Failure(e)
        case Success(docs) => Success(GeneratePrompt(t, file, testcase, docs));
    Called(Respond(outcome), l.requests)
  }

  /** Missing guidelines turn a found test case into the missing-resource
      error naming the full path. */
  lemma MissingGuidelines(d: Disk, base: string, json: Json, remote: Remote, t: Template, file: string, url: string)
    requires !Exists(d, ReadPath(base, GuidelinesPath))
    requires GetTestCase(d, base, json, remote,
                         Interpolate(ParsePath(url).project), Interpolate(ParsePath(url).id)).text.Success?
    ensures GenerateTestFromTms(d, base, json, remote, t, file, url).result
         == ToolResult([Text(ErrorPrefix + MissingPrefix + ReadPath(base, GuidelinesPath))], Some(true))
  {
    var p := ReadPath(base, GuidelinesPath);
    var fault := Thrown(MissingPrefix + p);
    assert ReadFile(d, base, GuidelinesPath) == Failure(fault);
    assert GenerateTestFromTms(d, base, json, remote, t, file, url).result == Respond(Failure(fault));
    RespondMissing(p);
  }

  /** The error result for a missing resource at `p`. */
  lemma RespondMissing(p: string)
    ensures Respond(Failure(Thrown(MissingPrefix + p))) == ToolResult([Text(ErrorPrefix + MissingPrefix + p)], Some(true))
  {
    assert ErrorPrefix + (MissingPrefix + p) == ErrorPrefix + MissingPrefix + p;
  }

  /** A failed lookup is reported whatever the guidelines hold. */
  lemma LookupFailsFirst(d: Disk, base: string, json: Json, remote: Remote, t: Template, file: string, url: string)
    requires GetTestCase(d, base, json, remote,
                         Interpolate(ParsePath(url).project), Interpolate(ParsePath(url).id)).text.Failure?
    ensures GenerateTestFromTms(d, base, json, remote, t, file, url)
         == GenerateTestFromTms(d.(files := d.files - {ReadPath(base, GuidelinesPath)}), base, json, remote, t, file, url)
  {
  }
}

=== FILE: wrappers.dfy ===
/** Failure-compatible wrappers used throughout the model: an optional value
    (a JavaScript `undefined` or absent key) and a success-or-error result
    (a resolved or rejected promise, a returned value or a thrown error). */
module Wrappers {

  datatype Option<+T> = None | Some(value: T) {

    /** The value, or `default` when absent (the `??` operator). */
    function GetOr(default: T): T {
      match this
      case Some(v) => v
      case None => default
    }
  }

  datatype Result<+R, +E> = Success(value: R) | Failure(error: E) {

    /** Applies `f` to a success value and passes a failure through (a `.then` callback). */
    function MapValue<U>(f: R -> U): Result<U, E> {
      match this
      case Success(v) => Success(f(v))
      case Failure(e) => Failure(e)
    }

    /** Applies `f` to a failure and passes a success value through. */
    function MapError<F>(f: E -> F): Result<R, F> {
      match this
      case Success(v) => Success(v)
      case Failure(e) => Failure(f(e))
    }
  }

  /** Why an operation failed: a thrown or rejected `Error` object, or a
      promise rejected with a bare value (which has no `message`). */
  datatype Fault = Thrown(message: string) | Rejected(reason: string)

  /** `error.message` as a template reads it: a bare rejection value has
      no `message` property and interpolates as `undefined`. */
  function Message(f: Fault): string {
    match f
    case Thrown(m) => m
    case Rejected(_) => "undefined"
  }
}
